=== FILE: README.md ===
# laravel-module-maker, modelled in Dafny

laravel-module-maker is a Laravel package that scaffolds a module under `Modules/{Name}`:
models, controllers, services, repositories, requests, migrations, seeders, factories, tests,
routes and a service provider. It does this from stub files and, optionally, a JSON
configuration that lists the module's components and their attributes. This project models
the decisions and the text compilers at the package's core. Each is a pure function over
immutable data:

- **Migration schema compiler** (`Migration`). It turns an attribute list into schema-builder
  lines. Both copies are modelled: the generator's, which indents its lines, and the
  make-module command's, which does not. It always opens with `$table->id();` and closes with
  `$table->timestamps();`.
- **Migration key sequencer** (`Migration`). This is the two-field state, last clock reading
  plus counter, behind `getUniqueMigrationTimestamp`. It is a pure `Step` function, and a
  class wraps it the way the static fields do.
- **Model fragments** (`ModelFragments`). These are the `$fillable` list and the relationship
  methods built from the same attribute list.
- **Factory value resolver** (`Factory`):
  - name heuristics in fixed priority, then the type-keyed strategy table, then the `word()`
    fallback;
  - the seven strategies, including the two foreign-key strategies with their model
    resolution and import rules;
  - the definition lines, and the deduplicated imports.
- **Stubs** (`Stubs`). These cover where a stub lives and how its `{{ key }}` markers are
  filled in. A missing stub is an error in the generators but the empty text in the command.
- **Provider text** (`Provider`). These are the `use` lines and container bindings for the
  module's service provider. The generator and the command disagree for clean modules.
- **Orchestration** (`Orchestration`):
  - the command's mode dispatch (individual components, clean module, dynamic module);
  - the three-tier lookup of the configuration file;
  - the generators each mode runs and the names it runs them under.
- **Host provider** (`HostProvider`):
  - the factory-class-name guesser the package installs;
  - the `api`/`web` middleware choice per route file;
  - which module providers get registered.

Several PHP built-ins are modelled as concrete functions with their own contracts (`Php`):
truthiness, string interpolation, `Str::contains`, `Str::before`, `trim`, `explode`,
`class_basename` and `sprintf('%02d')`. `json_encode` is modelled for the values the enum
strategy hands it (`Json`), with a decoder proved to invert it.

The rest of the world comes in as parameters:

- Laravel's inflector (`Str::studly`, `camel`, `snake`, `plural`, `singular`) is a record of
  functions, `Php.Inflector`.
- `class_exists` and `File::exists` are `string -> bool` oracles, and stub contents are a
  lookup from path to optional text.
- `date()` is the clock reading handed to the sequencer.
- `json_decode` of the configuration file is part of `Orchestration.Env`.

## Model

| member | source | states |
|---|---|---|
| Attributes.Columns | src/Generators/Components/ModelGenerator.php:56-57 | The column attributes are exactly the entries whose type is not `relationship`, in declaration order. |
| Attributes.Relationships | src/Generators/Components/ModelGenerator.php:77-78 | The relationship attributes are exactly the entries whose type is `relationship`. |
| Attributes.PartitionSizes | src/Generators/Components/ModelGenerator.php:56-57 | Columns and relationships split the attribute list between them: their counts add up to the list's length. |
| Attributes.ColumnsAppend | src/Generators/Components/MigrationGenerator.php:86-96 | The filter keeps declaration order: filtering a concatenation concatenates the filtered parts. |
| Attributes.RelationshipsAppend | src/Generators/Components/ModelGenerator.php:77-78 | The relationship filter keeps declaration order in the same way. |
| Migration.Schema | src/Generators/Components/MigrationGenerator.php:85-119 | Whatever the attributes declare, the schema starts with `$table->id();` and a newline, and ends with `$table->timestamps();`. |
| Migration.GeneratorSchema | src/Generators/Components/MigrationGenerator.php:79-122 | An empty list gives exactly the id line, twelve spaces and the timestamps call; every schema has the fixed opening and closing. |
| Migration.CommandSchema | src/Commands/MakeModuleCommand.php:562-605 | The command's copy gives the id line, one space and the timestamps call for an empty list, with the same opening and closing otherwise. |
| Migration.SchemaAppendColumn | src/Generators/Components/MigrationGenerator.php:86-118 | Appending a column attribute inserts its line just before the timestamps call and changes nothing else. |
| Migration.SchemaAppendRelationship | src/Generators/Components/MigrationGenerator.php:94-96 | Appending a relationship attribute leaves the schema unchanged. |
| Migration.ColumnLinesAppend | src/Generators/Components/MigrationGenerator.php:86-118 | The column lines of a concatenation are those of its parts, in order. |
| Migration.LinesAppendOne | src/Generators/Components/MigrationGenerator.php:86-118 | A trailing column attribute adds exactly its own call at the end of the lines. |
| Migration.NoColumns | src/Generators/Components/MigrationGenerator.php:94-96 | A list made only of relationships produces no column lines. |
| Migration.GeneratorRelationshipsOnly | src/Generators/Components/MigrationGenerator.php:81-96 | In the generator, a non-empty list of relationships only gives the same schema as the empty list. |
| Migration.CommandRelationshipsOnly | src/Commands/MakeModuleCommand.php:564-602 | In the command, such a list gives the id line directly followed by the timestamps call, which differs from the empty-list schema by the missing space. |
| Migration.ForeignIdConstrained | src/Generators/Components/MigrationGenerator.php:98-102 | A `foreignId` line continues with `->constrained(` exactly when `references` and `on` are both truthy, and then names the `on` table. |
| Migration.NullableLast | src/Generators/Components/MigrationGenerator.php:103-105 | A truthy `nullable` puts `->nullable()` at the very end of the line; without it a `foreignId` line or a line without length does not end with it. |
| Migration.PlainColumnShape | src/Generators/Components/MigrationGenerator.php:107-117 | Any other type renders as the type's method on the name, then `, {length}` only when length is truthy, then the closing paren. |
| Migration.Pad2 | src/Generators/Components/MigrationGenerator.php:70 | The counter is written as a decimal numeral whose value is the counter, with at least two digits, and as exactly two digits below 100. |
| Migration.Step | src/Generators/Components/MigrationGenerator.php:58-71 | A new clock reading resets the counter to 0 and the same reading increments it; the key is the reading, `_` and the padded counter. |
| Migration.Pad2Ordered | src/Generators/Components/MigrationGenerator.php:70 | Below 100, a larger counter always sorts after a smaller one as text. |
| Migration.StepIncreases | src/Generators/Components/MigrationGenerator.php:58-71 | Keys strictly increase as strings when the clock moves forward at the same width, or when it repeats with the counter still below 99. |
| Migration.HundredthKeyOutOfOrder | src/Generators/Components/MigrationGenerator.php:62-70 | Once the counter reaches 100 within one clock reading, the new key sorts before the previous one. |
| Migration.MigrationClock.UniqueTimestamp | src/Generators/Components/MigrationGenerator.php:58-71 | The stateful method updates both static fields and returns the key exactly as one `Step` does. |
| ModelFragments.Fillable | src/Generators/Components/ModelGenerator.php:50-62 | The fillable text is empty exactly when there is no column attribute; otherwise it is wrapped in `protected $fillable = [` and `];`. |
| ModelFragments.FillableRoundTrip | src/Generators/Components/ModelGenerator.php:56-61 | Parsing the fillable text back gives every column name, quoted and comma-separated in declaration order, provided no name contains a quote. |
| ModelFragments.TargetClass | src/Generators/Components/ModelGenerator.php:85 | The related class always lies in the current module's `Models` namespace and is named by the studly-cased model. |
| ModelFragments.MethodShape | src/Generators/Components/ModelGenerator.php:87-93 | A relationship method is named `camel(name)`, declares the relation type as its return type, and returns `$this->{type}` of the target class. |
| ModelFragments.MissingRelationship | src/Generators/Components/ModelGenerator.php:80-93 | A relationship entry without its `relationship` sub-record still yields one method, with an empty relation type and a target class built from the studly empty model name. |
| ModelFragments.RelationshipMethodsAppend | src/Generators/Components/ModelGenerator.php:77-97 | The methods of a concatenation are those of its parts, concatenated in order. |
| ModelFragments.RelationshipMethodsOne | src/Generators/Components/ModelGenerator.php:71-97 | An empty list or a column attribute yields no text, and a relationship attribute yields exactly its method. |
| Factory.FirstMatch | src/Generators/Components/Factory/FactoryGenerator.php:110-126 | A rule list picks the value of the first rule whose needle occurs in the name, and nothing when none occurs. |
| Factory.HeuristicIsFirstMatch | src/Generators/Components/Factory/FactoryGenerator.php:110-126 | The name heuristics are first-match substring rules in the priority email, password, title, name, slug. |
| Factory.StrategySelection | src/Generators/Components/Factory/FactoryGenerator.php:37-52 | The table maps `text`, the six integer types, `boolean`, the three date types, `enum`, `foreignId` and `foreign` to their strategies, and only those; `string` has none. |
| Factory.ConstantStrategies | src/Generators/Components/Factory/Strategies/IntegerStrategy.php:10-13 | The text, integer, boolean and date strategies return their fixed faker call, whatever the attribute holds. |
| Factory.EnumValue | src/Generators/Components/Factory/Strategies/EnumStrategy.php:10-14 | The enum expression is always `$this->faker->randomElement(...)`. |
| Factory.EnumCarriesOptions | src/Generators/Components/Factory/Strategies/EnumStrategy.php:12-13 | The argument decodes back to the declared options, or to the string `['value1', 'value2']` when none are declared. |
| Factory.FirstRelationFor | src/Generators/Components/Factory/Strategies/ForeignStrategy.php:40-45 | The relation used is the first one whose foreign key equals the attribute's name, and there is none when no foreign key matches. |
| Factory.ForeignModel | src/Generators/Components/Factory/Strategies/ForeignStrategy.php:40-51 | The model is that first relation's model; otherwise it is `Studly(singular(table))`, where the table is `on` or the name before `_id`. |
| Factory.OnTakesPrecedence | src/Generators/Components/Factory/Strategies/ForeignStrategy.php:48-50 | Without a matching relation, an explicit `on` alone decides the table. |
| Factory.IsInternalModel | src/Generators/Components/Factory/Strategies/ForeignStrategy.php:64-72 | A model is internal exactly when it equals one of the module's component names. |
| Factory.ForeignValue | src/Generators/Components/Factory/Strategies/ForeignStrategy.php:34-59 | The value is always `{Model}::factory()`, with the model's import added only for an internal model. |
| Factory.FirstExisting | src/Generators/Components/Factory/Strategies/ForeignIdStrategy.php:40-65 | A lookup returns the first candidate the existence oracle accepts, and nothing exactly when it accepts none. |
| Factory.OtherModuleModels | src/Generators/Components/Factory/Strategies/ForeignIdStrategy.php:49-56 | The second tier holds the model's class in every listed module other than the current one. |
| Factory.SearchModulesIsFirstExisting | src/Generators/Components/Factory/Strategies/ForeignIdStrategy.php:49-56 | The loop over the other modules returns the first of their candidates that exists. |
| Factory.FindIsFirstExisting | src/Generators/Components/Factory/Strategies/ForeignIdStrategy.php:40-65 | The namespace lookup tries the current module, then the other modules in order, then `App\Models`. It returns nothing exactly when no candidate exists, and any result exists. |
| Factory.ForeignIdValue | src/Generators/Components/Factory/Strategies/ForeignIdStrategy.php:14-30 | The value is `{Model}::factory()` with exactly one import: the resolved `use` line, or the TODO comment when nothing resolves. |
| Factory.AttributeValue | src/Generators/Components/Factory/FactoryGenerator.php:90-108 | A matching heuristic wins over every strategy. Otherwise the type's strategy applies, and `word()` is the fallback, which is also what a missing type gives. |
| Factory.Kept | src/Generators/Components/Factory/FactoryGenerator.php:79-81 | Exactly the attributes not named `id`, `created_at`, `updated_at` or `deleted_at` are kept; the test is by name, not by type. |
| Factory.KeptAppend | src/Generators/Components/Factory/FactoryGenerator.php:77-81 | Keeping distributes over concatenation, so kept attributes stay in declaration order, repeated entries included. |
| Factory.KeptOne | src/Generators/Components/Factory/FactoryGenerator.php:79-81 | A single attribute is kept exactly when its name is not a skipped name. |
| Factory.Definitions | src/Generators/Components/Factory/FactoryGenerator.php:74-84 | Every kept attribute gives one `'{name}' => {expr},` line, in order. |
| Factory.DefinitionLinesAppend | src/Generators/Components/Factory/FactoryGenerator.php:77-84 | The lines of a split list are those of its first part followed by those of the second. |
| Factory.DefinitionLineOne | src/Generators/Components/Factory/FactoryGenerator.php:79-83 | One attribute contributes its own `'{name}' => {expr},` line, or none when its name is skipped. |
| Factory.DefinitionImports | src/Generators/Components/Factory/FactoryGenerator.php:74-84 | The imports collected are those of the kept attributes' values, in order. |
| Factory.RenderIsJoin | src/Generators/Components/Factory/FactoryGenerator.php:85-87 | The rendered block is the definition lines joined by a newline and the indentation. |
| Factory.RenderedLinesRecoverable | src/Generators/Components/Factory/FactoryGenerator.php:83-87 | Splitting the rendered block at newlines and trimming gives back exactly the definition lines. |
| Factory.RenderNoLines | src/Generators/Components/Factory/FactoryGenerator.php:85-87 | Without definitions, the block is two indented blank lines. |
| Factory.Dedup | src/Generators/Components/Factory/FactoryGenerator.php:60 | The deduplicated imports have no repeats and hold exactly the collected imports. |
| Factory.DedupUnique | src/Generators/Components/Factory/FactoryGenerator.php:60 | A list without repeats is left as it is. |
| Factory.DedupIdempotent | src/Generators/Components/Factory/FactoryGenerator.php:60 | Deduplicating twice is deduplicating once. |
| Factory.DedupExtends | src/Generators/Components/Factory/FactoryGenerator.php:60 | Each import keeps its place of first occurrence: more imports only extend the result. |
| Json.RoundTrip | src/Generators/Components/Factory/Strategies/EnumStrategy.php:13 | The JSON encoding of null, booleans, integers, strings and lists decodes back to the same value. |
| Json.EncodeListInOrder | src/Generators/Components/Factory/Strategies/EnumStrategy.php:13 | A list is encoded as its items' encodings between brackets, comma-separated, in order. |
| Stubs.SplitOn | src/Generators/Concerns/HasStubs.php:65 | A text splits at the leftmost non-overlapping occurrences of a search string into pieces that rejoin to the text and do not contain it. |
| Stubs.ReplaceAbsent | src/Generators/Concerns/HasStubs.php:65 | Replacing a string that does not occur changes nothing. |
| Stubs.ReplaceLength | src/Generators/Concerns/HasStubs.php:65 | Each replaced occurrence changes the length by the difference between the replacement and the search string. |
| Stubs.ReplacePlaceholdersAppend | src/Generators/Concerns/HasStubs.php:62-68 | Placeholders apply in map order, so a later key sees the text that earlier values brought in. |
| Stubs.ReplaceOne | src/Generators/Concerns/HasStubs.php:62-68 | One key replaces every occurrence of its marker. A key whose marker is absent, or an empty map, leaves the stub as it is. |
| Stubs.NoMarkersUnchanged | src/Generators/Concerns/HasStubs.php:62-68 | A stub containing none of the map's markers comes back unchanged. |
| Stubs.StubPathInjective | src/Generators/Concerns/HasStubs.php:48-53 | Under one base directory, the `clean`/`dynamic` path determines both the variant and the file. |
| Stubs.StubContent | src/Generators/Concerns/HasStubs.php:18-39 | Loading fails exactly when the stub is missing, with the `El archivo stub ...` message; otherwise it is the filled stub. |
| Stubs.CommandStubAgrees | src/Commands/MakeModuleCommand.php:283-320 | The command's copy agrees with the generators when the stub exists, and yields the empty text where they fail. |
| Provider.ImportLines | src/Generators/Components/ProviderGenerator.php:37-42 | Every model contributes four `use` lines. |
| Provider.Bindings | src/Generators/Components/ProviderGenerator.php:43-50 | Every model contributes two bind blocks. |
| Provider.ProviderListsOne | src/Generators/Components/ProviderGenerator.php:37-50 | One model contributes the service contract, the service, the repository contract and the repository, bound interface to implementation in that order. |
| Provider.ImportLinesAppend | src/Generators/Components/ProviderGenerator.php:37-51 | The imports follow the components' order. |
| Provider.BindingsAppend | src/Generators/Components/ProviderGenerator.php:37-51 | The bindings follow the components' order. |
| Provider.ProviderModels | src/Generators/Components/ProviderGenerator.php:36-55 | In a dynamic module with components, the models are the components' studly names. Otherwise there is exactly one model, the studly module name. |
| Provider.ImportsRecoverable | src/Generators/Components/ProviderGenerator.php:71 | The trimmed imports split at newlines into exactly the import lines. |
| Provider.BindingsTrimmed | src/Generators/Components/ProviderGenerator.php:72 | Trimming the bindings removes only the first block's indentation and the final newline. |
| Provider.CommandVersusGenerator | src/Commands/MakeModuleCommand.php:224-260 | The command matches the generator in a dynamic module with components, and emits empty imports and bindings otherwise. The generator never emits empty bindings. |
| Orchestration.StepsFor | src/Generators/Components/ModuleGenerator.php:149-170 | One invocation per generator in the given order, each under that generator's naming rule. |
| Orchestration.OrdersDistinct | src/Generators/Components/ModuleGenerator.php:110-120 | Neither the per-component order nor the clean order runs a generator twice. |
| Orchestration.OrdersCover | src/Generators/Components/ModuleGenerator.php:110-120 | A clean module runs every generator; a component runs every generator except the provider. |
| Orchestration.ComponentNames | src/Generators/Components/ModuleGenerator.php:150-168 | Per component, every generator except the provider runs once, named with its suffix on the studly model. |
| Orchestration.AllComponentSteps | src/Generators/Components/ModuleGenerator.php:149-170 | Each component contributes its block of ten invocations, in component order. |
| Orchestration.AllComponentNames | src/Generators/Components/ModuleGenerator.php:149-170 | Each generator receives one name per component, in component order. |
| Orchestration.DynamicNames | src/Generators/Components/ModuleGenerator.php:144-170 | A dynamic module runs the provider once for the module, and every other generator once per component under the naming rule. |
| Orchestration.CleanIsOneComponent | src/Generators/Components/ModuleGenerator.php:96-125 | A clean module runs every generator once under the module's name: the same invocations as a one-component dynamic module, in another order. |
| Orchestration.Gated | src/Generators/Components/ModuleGenerator.php:183-217 | Individual mode runs exactly the generators whose option passes the gate, each under the studly option name. |
| Orchestration.GatesAgree | src/Commands/MakeModuleCommand.php:79-102 | The command's gate (the raw option is truthy) and the generator's (the studly name is truthy) give the same runs whenever the two tests agree. |
| Orchestration.GeneratorSkipsEmptyNames | src/Generators/Components/ModuleGenerator.php:188-212 | The generator never runs a component under an empty name, nor under `0`. |
| Orchestration.ConfigPathIsFirstExisting | src/Commands/MakeModuleCommand.php:192-212 | The configuration lookup returns the first existing path among the module, package and application config, else the path as given. |
| Orchestration.GeneratorConfigPath | src/Generators/Components/ModuleGenerator.php:42-61 | The generator's lookup returns the given path or an existing one, with `base_path('config')` as the last tier. |
| Orchestration.CommandConfigPath | src/Commands/MakeModuleCommand.php:192-212 | The command's lookup returns the given path or an existing one. |
| Orchestration.GeneratorDynamic | src/Generators/Components/ModuleGenerator.php:133-175 | A dynamic module fails, with its error message, exactly when the configuration is null or an array without any key; an array with keys runs even when every value is null. |
| Orchestration.NullModuleNameStillRuns | src/Generators/Components/ModuleGenerator.php:135-147 | A configuration holding only a null `module_name` is not empty: the generator runs the provider for the module, with no components, instead of failing. |
| Orchestration.CommandDynamic | src/Commands/MakeModuleCommand.php:143-156 | A configuration file that cannot be found fails with the `no existe` message naming the path as given; a file that does not decode fails with `Error al parsear el archivo JSON: ` followed by the decoder's message. |
| Orchestration.DynamicModuleNames | src/Commands/MakeModuleCommand.php:152-166 | The command names the module after `module_name` when present and runs even without components; the generator keeps its own name. |
| Orchestration.Handle | src/Commands/MakeModuleCommand.php:40-70 | The command ends with success or failure, and a failed run invokes no generator and reports an error. |
| Orchestration.HandleFails | src/Commands/MakeModuleCommand.php:46-59 | The command fails exactly when component options are given for a missing module, or none are given for an existing module. |
| Orchestration.HandleExistingModule | src/Commands/MakeModuleCommand.php:46-53 | For an existing module with component options, the command succeeds and runs only individual component generators. |
| Orchestration.HandleNewModule | src/Commands/MakeModuleCommand.php:56-67 | For a new module without component options, the command takes the dynamic path when `--config` is given and the clean path otherwise. |
| Orchestration.IndividualRunsRequested | src/Commands/MakeModuleCommand.php:79-102 | When any option is set, the command runs exactly the requested components and at least one of them. |
| Orchestration.IndividualOnlyRequested | src/Commands/MakeModuleCommand.php:83-100 | Every generator the command runs in individual mode was requested by a truthy option. |
| Orchestration.IndividualAllRequested | src/Commands/MakeModuleCommand.php:83-100 | Every truthy option runs its generator under its studly name. |
| HostProvider.GuessFactoryName | src/LaravelModuleMakerServiceProvider.php:98-106 | The guessed factory ends in the model's basename plus `Factory`; outside `Modules\` it lies in `Database\Factories`. |
| HostProvider.GuessTakesSecondSegment | src/LaravelModuleMakerServiceProvider.php:99-103 | Under `Modules\`, the module is the second backslash segment, however deeply the model is nested. |
| HostProvider.GuessForGeneratedModel | src/LaravelModuleMakerServiceProvider.php:99-103 | A model generated as `Modules\{M}\Models\{X}` gets the factory the package generates for it, `Modules\{M}\Database\Factories\{X}Factory`. |
| HostProvider.Middleware | src/LaravelModuleMakerServiceProvider.php:64-74 | A route file gets the `api` or the `web` group. |
| HostProvider.RouteGroups | src/LaravelModuleMakerServiceProvider.php:60-75 | Each route file keeps its place and gets `api` exactly when it is named `api.php`. |
| HostProvider.ProviderClass | src/LaravelModuleMakerServiceProvider.php:51 | A module's provider class lies under `Modules\` and ends in `ServiceProvider`, and its length grows with the module name's: two characters per character. |
| HostProvider.ProviderClassInjective | src/LaravelModuleMakerServiceProvider.php:51 | Distinct modules have distinct provider classes. |
| HostProvider.RegisteredProviders | src/LaravelModuleMakerServiceProvider.php:46-54 | A class is registered exactly when it is some module directory's provider class and that class exists. |
| HostProvider.RegisteredInDirectoryOrder | src/LaravelModuleMakerServiceProvider.php:46-54 | Providers are registered in directory order: a split directory list registers those of its first part, then those of its second. |
| HostProvider.RegisteredOne | src/LaravelModuleMakerServiceProvider.php:47-54 | One directory registers its studly-named provider class exactly when that class exists, and nothing otherwise. |
| Php.Contains | src/Generators/Components/Factory/FactoryGenerator.php:112-125 | `Str::contains` holds exactly when the needle is non-empty and occurs in the name. |
| Php.Before | src/Generators/Components/Factory/Strategies/ForeignStrategy.php:49 | `Str::before` returns the prefix before the first occurrence of the search string, or the whole subject when it does not occur. |
| Php.TrimSurrounded | src/Generators/Components/ProviderGenerator.php:71-72 | `trim` removes exactly the whitespace around a body that starts and ends with a non-whitespace character. |
| Php.JoinExplode | src/LaravelModuleMakerServiceProvider.php:100 | `explode` inverts joining with the separator when no piece contains it. |
| Php.ExplodeJoin | src/LaravelModuleMakerServiceProvider.php:100 | Joining the pieces of `explode` with the separator gives back the text. |
| Php.ClassBasenameIsLastSegment | src/LaravelModuleMakerServiceProvider.php:102 | `class_basename` of a namespaced name is its last backslash segment. |

## Left out

- File and console I/O are not modelled: writing files, creating directories, reading stubs
  and messages to the console. Existence checks and stub contents are oracle parameters, and
  a run is described by the generator invocations it makes.
- `Str::studly`, `camel`, `snake`, `plural` and `singular` are uninterpreted functions in
  `Php.Inflector`, because Laravel's inflector is not part of this model. `class_exists` and
  `File::exists` are oracles, and `date()` is the clock argument of `Migration.Step`.
- The faker calls are kept as expression text; no synthetic value is generated.
- `AttributeValueStrategy` is an interface in the source. Here the seven strategies are the
  constructors of `Factory.Strategy`, dispatched by `Factory.Apply`, which gives the same
  behaviour without an interface type.
- `ForeignIdStrategy::generate` reads `$modelName` and `$moduleName`, which are not defined in
  its scope. The model name is a parameter of the context (`foreignIdModel`), and the module
  list is `Factory.KnownModules`, hard-coded as in `getAllModules`.
- `ForeignIdStrategy`'s constructor is elided in the source (ForeignIdStrategy.php:10-12). The
  model assumes it binds `$modelUses` by reference, as `ForeignStrategy`'s does
  (ForeignStrategy.php:21-24). That is why the foreignId `use` line or TODO comment reaches the
  factory's imports (`Factory.KeptImports`, `Factory.DefinitionImports`). Without that binding,
  the line would stay in the strategy's own property and the factory would import nothing for it.
- `ModuleGenerator::createDynamicModule` builds its migration generator with an expression
  that is not valid PHP (ModuleGenerator.php:165). It is modelled as one migration invocation
  per component. As written, that line is a parse error, so `ModuleGenerator.php` cannot be
  loaded at all. None of the generator's runs (`GeneratorDynamic`, `GeneratorIndividual`,
  `GeneratorConfigPath`, the clean run) can happen; the model describes the evident intent. The component's indexes are not modelled, because the compiler never reads
  them.
- `json_decode` of the configuration file is an oracle in `Orchestration.Env`, with its error
  message.
- `json_encode` is modelled only for null, booleans, integers, strings and lists of these,
  with PHP's default flags. Floats and objects are left out.
- PHP's `??` treats a missing key and `null` alike, so `VNull` stands for both.
- A decoded configuration keeps the set of its top-level keys and the two values the
  generators read, `module_name` and `components`. The other keys' values are not modelled,
  because nothing reads them; they matter only in making the array non-empty.
- A `relationship` entry without its `relationship` sub-record is read the way PHP reads it
  with warnings: its model and type are null, which interpolates as the empty string.
  `Str::studly(null)` is taken to be the inflector applied to the empty string.
- In the migration schema, an `on` or `length` value that is a list is interpolated as `Array`,
  as PHP does, with its notice omitted.
- Factory.ForeignModel: for an `on` value that is a list, with no matching relation, the model
  uses the interpolated text `Array` as the table name. PHP instead passes the array itself to
  `Str::singular` (ForeignStrategy.php:49-50). The inflector takes a string, so that raises a
  TypeError, and the model does not represent the failure.
- What each thin generator (controller, service, repository, request, route, seeder, test)
  writes beyond its name is not modelled: those are stub fills with no decision of their
  own. The same goes for the stub placeholders the orchestration passes along.
- Several parts of the service provider are not modelled: loading views, translations and
  migrations, and the early return when `Modules` does not exist. These are pure framework
  calls. The setup command and the seeder file only copy files and insert rows, and are
  likewise left out.
- `src/Generators/Components/FactoryGenerator.php`, the older factory generator outside the
  `Factory` folder, is not part of this model. The factory model follows
  `src/Generators/Components/Factory/FactoryGenerator.php`.
- Migration.MigrationClock.UniqueTimestamp: its contract is stated through `old` on the
  object's fields; the same behaviour is stated without state by `Migration.Step`.
- Migration.NullableLast: without `nullable`, a column with a length is not shown to lack a
  trailing `->nullable()`, because the length text itself could end with those characters.
- Orchestration.GeneratorSkipsEmptyNames: the module generator's gate is the truthiness of the
  studly name, so a name that comes out as `0` is skipped too, not only the empty name.
- Orchestration.GatesAgree: the two individual-mode gates are shown equal only under the
  condition that the raw option and the name it yields are both truthy or both falsy; with
  the inflector left open, nothing stronger holds.
- Factory.ConstantStrategies: the file cited is the integer strategy; the text, boolean and date
  strategies (`TextStrategy.php`, `BooleanStrategy.php` and `DateStrategy.php`, each at line
  12) are covered by the same lemma.

=== FILE: attributes.dfy ===
/**
 * The component description the generators read, as decoded from the module's JSON
 * configuration: one record per component, each with an attribute list, a relation list and
 * the list of sibling component names.
 */
module Attributes {
  import opened Wrappers
  import opened Php

  /** The `relationship` sub-record of a relationship-typed attribute: the target model and the
      Eloquent relation method (`belongsTo`, `hasMany`, ...) to call. */
  datatype RelationshipSpec = RelationshipSpec(model: string, relationType: string)

  /**
   * One entry of a component's `attributes` list. `typeName` is the `type` key (None when it
   * is missing or null); the remaining keys keep their loose PHP values, `VNull` when absent.
   */
  datatype Attribute = Attribute(
    name: string,
    typeName: Option<string>,
    nullable: Value,
    length: Value,
    references: Value,
    on: Value,
    options: Value,
    relationship: Option<RelationshipSpec>)

  /** Relationship entries describe a model method, not a column. */
  predicate IsRelationship(a: Attribute) {
    a.typeName == Some("relationship")
  }

  /** The `relationship` sub-record as the model generator reads it, unconditionally: without
      one, its `model` and `type` read as null, which interpolates as the empty string. */
  function RelationOf(a: Attribute): RelationshipSpec {
    a.relationship.GetOr(RelationshipSpec("", ""))
  }

  /** One entry of a component's `relations` list, as the factory generator reads it. */
  datatype Relation = Relation(foreignKey: Option<string>, model: Option<string>)

  /** One entry of the configuration's `components` list. `siblings` holds the names under the
      component's own `components` key, which the `foreign` strategy consults. */
  datatype Component = Component(
    name: string,
    attributes: seq<Attribute>,
    relations: seq<Relation>,
    siblings: seq<string>)

  /** The attributes that are not relationship entries, in declaration order. */
  function Columns(attributes: seq<Attribute>): (r: seq<Attribute>)
    ensures |r| <= |attributes|
    ensures forall a :: a in r <==> a in attributes && !IsRelationship(a)
    decreases |attributes|
  {
    if |attributes| == 0 then []
    else
      var rest := Columns(attributes[1..]);
      assert forall a :: a in attributes <==> a == attributes[0] || a in attributes[1..];
      if IsRelationship(attributes[0]) then rest else [attributes[0]] + rest
  }

  /** The relationship entries, in declaration order. */
  function Relationships(attributes: seq<Attribute>): (r: seq<Attribute>)
    ensures |r| <= |attributes|
    ensures forall a :: a in r <==> a in attributes && IsRelationship(a)
    decreases |attributes|
  {
    if |attributes| == 0 then []
    else
      var rest := Relationships(attributes[1..]);
      assert forall a :: a in attributes <==> a == attributes[0] || a in attributes[1..];
      if IsRelationship(attributes[0]) then [attributes[0]] + rest else rest
  }

  /** Filtering distributes over concatenation, so declaration order is kept. */
  lemma {:induction false} ColumnsAppend(a: seq<Attribute>, b: seq<Attribute>)
    ensures Columns(a + b) == Columns(a) + Columns(b)
    decreases |a|
  {
    if |a| == 0 {
      assert a + b == b;
    } else {
      assert (a + b)[1..] == a[1..] + b;
      ColumnsAppend(a[1..], b);
    }
  }

  lemma {:induction false} RelationshipsAppend(a: seq<Attribute>, b: seq<Attribute>)
    ensures Relationships(a + b) == Relationships(a) + Relationships(b)
    decreases |a|
  {
    if |a| == 0 {
      assert a + b == b;
    } else {
      assert (a + b)[1..] == a[1..] + b;
      RelationshipsAppend(a[1..], b);
    }
  }

  /** Every attribute lands in exactly one of the two lists. */
  lemma {:induction false} PartitionSizes(attributes: seq<Attribute>)
    ensures |Columns(attributes)| + |Relationships(attributes)| == |attributes|
    decreases |attributes|
  {
    if |attributes| > 0 {
      PartitionSizes(attributes[1..]);
    }
  }
}

=== FILE: factory.dfy ===
/**
 * The factory definition builder: for every attribute not skipped by name, a synthetic value
 * expression chosen by a name heuristic, else by a strategy keyed on the attribute's type,
 * else a fallback; plus the `use` lines the foreign-key strategies ask for along the way.
 * Only the chosen expression texts are modelled, never the values faker would produce.
 */
module Factory {
  import opened Wrappers
  import opened Php
  import opened Attributes
  import Json

  // ---------------------------------------------------------------- name heuristics

  /** The heuristic rules in priority order: a name containing the key gets the expression. */
  const HeuristicRules: seq<(string, string)> := [
    ("email", "$this->faker->unique()->safeEmail()"),
    ("password", "$this->faker->password()"),
    ("title", "$this->faker->sentence()"),
    ("name", "$this->faker->name()"),
    ("slug", "$this->faker->name()")]

  /** The position of the first rule whose key occurs in `name`; `|rules|` when none does. */
  function MatchIndex(rules: seq<(string, string)>, name: string): (k: nat)
    ensures k <= |rules|
    ensures forall j :: 0 <= j < k ==> !Contains(name, rules[j].0)
    ensures k < |rules| ==> Contains(name, rules[k].0)
    decreases |rules|
  {
    if |rules| == 0 || Contains(name, rules[0].0) then 0
    else
      var k := MatchIndex(rules[1..], name);
      assert forall j :: 1 <= j < |rules| ==> rules[j] == rules[1..][j - 1];
      1 + k
  }

  /** The expression of the first rule whose key occurs in `name`, if any. */
  function FirstMatch(rules: seq<(string, string)>, name: string): (r: Option<string>)
    ensures r.Some? <==> exists k :: 0 <= k < |rules| && Contains(name, rules[k].0)
    ensures r.Some? ==> exists k :: 0 <= k < |rules| && Contains(name, rules[k].0) && r.value == rules[k].1
                                 && forall j :: 0 <= j < k ==> !Contains(name, rules[j].0)
  {
    var k := MatchIndex(rules, name);
    if k == |rules| then None else Some(rules[k].1)
  }

  /** `mapCommonAttributeNamesToFaker`. */
  function Heuristic(name: string): Option<string> {
    if Contains(name, "email") then Some("$this->faker->unique()->safeEmail()")
    else if Contains(name, "password") then Some("$this->faker->password()")
    else if Contains(name, "title") then Some("$this->faker->sentence()")
    else if Contains(name, "name") then Some("$this->faker->name()")
    else if Contains(name, "slug") then Some("$this->faker->name()")
    else None
  }

  /** The chain of tests is the first match over the rules, so an earlier key always wins
      (an `email_name` column gets the e-mail expression, a `username` the name one). */
  lemma HeuristicIsFirstMatch(name: string)
    ensures Heuristic(name) == FirstMatch(HeuristicRules, name)
  {
    var rs := HeuristicRules;
    assert rs[1..][1..][1..][1..][1..] == [];
  }

  // ---------------------------------------------------------------- strategy table

  datatype Strategy = Text | Integer | Boolean | Date | Enum | ForeignId | Foreign

  /** The type-keyed strategy table. */
  const Strategies: map<string, Strategy> := map[
    "text" := Text,
    "integer" := Integer,
    "tinyInteger" := Integer,
    "smallInteger" := Integer,
    "mediumInteger" := Integer,
    "bigInteger" := Integer,
    "unsignedBigInteger" := Integer,
    "boolean" := Boolean,
    "timestamp" := Date,
    "date" := Date,
    "dateTime" := Date,
    "enum" := Enum,
    "foreignId" := ForeignId,
    "foreign" := Foreign]

  /** The strategy for a type, if the table has one. */
  function StrategyFor(typeName: string): (r: Option<Strategy>)
    ensures r.Some? <==> typeName in Strategies
    ensures r.Some? ==> r.value == Strategies[typeName]
  {
    if typeName in Strategies then Some(Strategies[typeName]) else None
  }

  /** Which types select which strategy; the default type `string` selects none. */
  lemma StrategySelection(t: string)
    ensures StrategyFor(t) == Some(Text) <==> t == "text"
    ensures StrategyFor(t) == Some(Integer) <==>
      t in ["integer", "tinyInteger", "smallInteger", "mediumInteger", "bigInteger", "unsignedBigInteger"]
    ensures StrategyFor(t) == Some(Boolean) <==> t == "boolean"
    ensures StrategyFor(t) == Some(Date) <==> t in ["timestamp", "date", "dateTime"]
    ensures StrategyFor(t) == Some(Enum) <==> t == "enum"
    ensures StrategyFor(t) == Some(ForeignId) <==> t == "foreignId"
    ensures StrategyFor(t) == Some(Foreign) <==> t == "foreign"
    ensures StrategyFor("string") == None
  {
  }

  // ---------------------------------------------------------------- strategies

  /** The value expression and the `use` lines a strategy adds to the factory. */
  datatype Outcome = Outcome(expr: string, imports: seq<string>)

  /**
   * What the strategies can see: the inflector, the module, the component configuration
   * (relations and sibling component names), the class-existence oracle, and the model name
   * the `foreignId` strategy resolves for an attribute.
   */
  datatype Context = Context(
    inf: Inflector,
    moduleName: string,
    component: Component,
    classExists: string -> bool,
    foreignIdModel: Attribute -> string)

  /** The options the enum strategy falls back to: a string, not a list. */
  const DefaultEnumOptions: string := "['value1', 'value2']"

  const EnumPrefix: string := "$this->faker->randomElement("

  function EnumOptions(a: Attribute): Value {
    if a.options == VNull then VStr(DefaultEnumOptions) else a.options
  }

  /** `EnumStrategy::generate`. */
  function EnumValue(a: Attribute): (r: string)
    ensures StartsWith(r, EnumPrefix) && EndsWith(r, ")")
  {
    EnumPrefix + Json.Encode(EnumOptions(a)) + ")"
  }

  /** Reads the options back out of an enum expression. */
  function EnumArgument(expr: string): Option<Value> {
    if |expr| >= |EnumPrefix| + 1 && StartsWith(expr, EnumPrefix) && EndsWith(expr, ")") then
      Json.Decode(expr[|EnumPrefix|..|expr| - 1])
    else None
  }

  /**
   * The enum expression carries the declared options unchanged (a list keeps its order and
   * its elements); without options it carries the default as one string, so faker would pick
   * that whole string rather than one of two values.
   */
  lemma EnumCarriesOptions(a: Attribute)
    ensures a.options != VNull ==> EnumArgument(EnumValue(a)) == Some(a.options)
    ensures a.options == VNull ==> EnumArgument(EnumValue(a)) == Some(VStr("['value1', 'value2']"))
  {
    var e := EnumValue(a);
    assert e[|EnumPrefix|..|e| - 1] == Json.Encode(EnumOptions(a));
    Json.RoundTrip(EnumOptions(a));
  }

  /** The index of the first relation declared for the foreign key `key`. */
  function FirstRelationFor(relations: seq<Relation>, key: string): (r: Option<nat>)
    ensures r.Some? ==> r.value < |relations| && relations[r.value].foreignKey == Some(key)
    ensures r.Some? ==> forall j :: 0 <= j < r.value ==> relations[j].foreignKey != Some(key)
    ensures r.None? ==> forall j :: 0 <= j < |relations| ==> relations[j].foreignKey != Some(key)
    decreases |relations|
  {
    if |relations| == 0 then None
    else if relations[0].foreignKey == Some(key) then Some(0)
    else
      match FirstRelationFor(relations[1..], key)
      case Some(k) => Some(k + 1)
      case None => None
  }

  /** The table a foreign key points at when no relation names the model: `on`, else the
      key's text before `_id`. */
  function ForeignTable(a: Attribute): string {
    if a.on != VNull then Interpolate(a.on) else Before(a.name, "_id")
  }

  /** The model a `foreign` attribute refers to. */
  function ForeignModel(ctx: Context, a: Attribute): (m: string)
    ensures var k := FirstRelationFor(ctx.component.relations, a.name);
      k.Some? && ctx.component.relations[k.value].model.Some? ==> m == ctx.component.relations[k.value].model.value
    ensures var k := FirstRelationFor(ctx.component.relations, a.name);
      !(k.Some? && ctx.component.relations[k.value].model.Some?) ==> m == ctx.inf.studly(ctx.inf.singular(ForeignTable(a)))
  {
    var k := FirstRelationFor(ctx.component.relations, a.name);
    if k.Some? && ctx.component.relations[k.value].model.Some? then ctx.component.relations[k.value].model.value
    else ctx.inf.studly(ctx.inf.singular(ForeignTable(a)))
  }

  /** `isInternalModel`: some sibling component has exactly that name. */
  function IsInternalModel(model: string, names: seq<string>): (r: bool)
    ensures r <==> model in names
    decreases |names|
  {
    if |names| == 0 then false
    else if names[0] == model then true
    else
      assert names == [names[0]] + names[1..];
      IsInternalModel(model, names[1..])
  }

  /** The call every foreign-key strategy returns. */
  function FactoryCall(model: string): string {
    model + "::factory()"
  }

  /** `ForeignStrategy::generate`. */
  function ForeignValue(ctx: Context, a: Attribute): (r: Outcome)
    ensures r.expr == FactoryCall(ForeignModel(ctx, a))
    ensures ForeignModel(ctx, a) in ctx.component.siblings ==>
      r.imports == ["use Modules\\" + ctx.moduleName + "\\Models\\" + ForeignModel(ctx, a) + ";"]
    ensures ForeignModel(ctx, a) !in ctx.component.siblings ==> r.imports == []
  {
    var m := ForeignModel(ctx, a);
    var imports := if IsInternalModel(m, ctx.component.siblings) then ["use Modules\\" + ctx.moduleName + "\\Models\\" + m + ";"] else [];
    Outcome(FactoryCall(m), imports)
  }

  /** An explicit `on` decides the model whenever no relation names one. */
  lemma OnTakesPrecedence(ctx: Context, a: Attribute)
    requires FirstRelationFor(ctx.component.relations, a.name).None?
    requires a.on != VNull
    ensures ForeignModel(ctx, a) == ctx.inf.studly(ctx.inf.singular(Interpolate(a.on)))
  {
  }

  // ---------------------------------------------------------------- foreign ids

  /** The module list the `foreignId` strategy searches. */
  const KnownModules: seq<string> := ["UserManagement", "Blog", "Shop"]

  function ModuleModel(moduleName: string, model: string): string {
    "Modules\\" + moduleName + "\\Models\\" + model
  }

  /** The candidates in search order: current module, the other modules, the application. */
  function Candidates(model: string, current: string, modules: seq<string>): seq<string> {
    [ModuleModel(current, model)] + OtherModuleModels(model, current, modules) + ["App\\Models\\" + model]
  }

  function OtherModuleModels(model: string, current: string, modules: seq<string>): (r: seq<string>)
    ensures forall c :: c in r <==> exists m :: m in modules && m != current && c == ModuleModel(m, model)
    decreases |modules|
  {
    if |modules| == 0 then []
    else
      var rest := OtherModuleModels(model, current, modules[1..]);
      assert forall m :: m in modules <==> m == modules[0] || m in modules[1..];
      if modules[0] != current then [ModuleModel(modules[0], model)] + rest else rest
  }

  /** The first candidate the oracle says exists. */
  function FirstExisting(present: string -> bool, candidates: seq<string>): (r: Option<string>)
    ensures r.Some? ==> r.value in candidates && present(r.value)
    ensures r.Some? ==> exists k :: 0 <= k < |candidates| && candidates[k] == r.value
                                 && forall j :: 0 <= j < k ==> !present(candidates[j])
    ensures r.None? <==> forall j :: 0 <= j < |candidates| ==> !present(candidates[j])
    decreases |candidates|
  {
    if |candidates| == 0 then None
    else if present(candidates[0]) then Some(candidates[0])
    else
      var r := FirstExisting(present, candidates[1..]);
      assert forall j :: 1 <= j < |candidates| ==> candidates[j] == candidates[1..][j - 1];
      if r.Some? then
        var k :| 0 <= k < |candidates[1..]| && candidates[1..][k] == r.value
                 && forall j :: 0 <= j < k ==> !present(candidates[1..][j]);
        assert candidates[k + 1] == r.value;
        r
      else r
  }

  /** The loop over the other modules of `findModelNamespace`. */
  function SearchModules(present: string -> bool, model: string, current: string, modules: seq<string>): Option<string>
    decreases |modules|
  {
    if |modules| == 0 then None
    else if modules[0] != current && present(ModuleModel(modules[0], model)) then Some(ModuleModel(modules[0], model))
    else SearchModules(present, model, current, modules[1..])
  }

  /** `findModelNamespace`. */
  function FindModelNamespace(present: string -> bool, model: string, current: string, modules: seq<string>): Option<string> {
    if present(ModuleModel(current, model)) then Some(ModuleModel(current, model))
    else match SearchModules(present, model, current, modules)
      case Some(ns) => Some(ns)
      case None =>
        if present("App\\Models\\" + model) then Some("App\\Models\\" + model) else None
  }

  lemma FirstExistingAppend(present: string -> bool, a: seq<string>, b: seq<string>)
    ensures FirstExisting(present, a + b)
         == match FirstExisting(present, a) case Some(c) => Some(c) case None => FirstExisting(present, b)
    decreases |a|
  {
    if |a| > 0 {
      assert (a + b)[1..] == a[1..] + b;
      FirstExistingAppend(present, a[1..], b);
    } else {
      assert a + b == b;
    }
  }

  lemma {:induction false} SearchModulesIsFirstExisting(present: string -> bool, model: string, current: string, modules: seq<string>)
    ensures SearchModules(present, model, current, modules) == FirstExisting(present, OtherModuleModels(model, current, modules))
    decreases |modules|
  {
    if |modules| > 0 {
      SearchModulesIsFirstExisting(present, model, current, modules[1..]);
      var rest := OtherModuleModels(model, current, modules[1..]);
      if modules[0] != current {
        var c := ModuleModel(modules[0], model);
        assert ([c] + rest)[1..] == rest;
      }
    }
  }

  /**
   * The search returns the first existing class among the current module's model, the other
   * modules' models in list order and the application model; it returns nothing exactly when
   * none of them exists, and whatever it returns exists.
   */
  lemma FindIsFirstExisting(present: string -> bool, model: string, current: string, modules: seq<string>)
    ensures FindModelNamespace(present, model, current, modules) == FirstExisting(present, Candidates(model, current, modules))
    ensures FindModelNamespace(present, model, current, modules).None?
        <==> forall c :: c in Candidates(model, current, modules) ==> !present(c)
    ensures FindModelNamespace(present, model, current, modules).Some?
        ==> present(FindModelNamespace(present, model, current, modules).value)
  {
    FindEqualsFirstExisting(present, model, current, modules);
    var cs := Candidates(model, current, modules);
    assert forall c :: c in cs <==> exists j :: 0 <= j < |cs| && cs[j] == c;
  }

  lemma FindEqualsFirstExisting(present: string -> bool, model: string, current: string, modules: seq<string>)
    ensures FindModelNamespace(present, model, current, modules) == FirstExisting(present, Candidates(model, current, modules))
  {
    var h := ModuleModel(current, model);
    var others := OtherModuleModels(model, current, modules);
    var a := "App\\Models\\" + model;
    assert Candidates(model, current, modules) == [h] + (others + [a]);
    FirstExistingCons(present, h, others + [a]);
    FirstExistingAppend(present, others, [a]);
    FirstExistingCons(present, a, []);
    assert [a] + [] == [a];
    SearchModulesIsFirstExisting(present, model, current, modules);
  }

  /** The search on a list looks at its head first. */
  lemma FirstExistingCons(present: string -> bool, c: string, rest: seq<string>)
    ensures FirstExisting(present, [c] + rest) == if present(c) then Some(c) else FirstExisting(present, rest)
  {
    assert ([c] + rest)[0] == c && ([c] + rest)[1..] == rest;
  }

  /** `ForeignIdStrategy::generate` for the model name the strategy resolves. */
  function ForeignIdValue(ctx: Context, a: Attribute): (r: Outcome)
    ensures var m := ctx.foreignIdModel(a);
      r.expr == FactoryCall(m)
      && |r.imports| == 1
      && (FindModelNamespace(ctx.classExists, m, ctx.moduleName, KnownModules).Some? ==>
            r.imports[0] == "use " + FindModelNamespace(ctx.classExists, m, ctx.moduleName, KnownModules).value + ";")
      && (FindModelNamespace(ctx.classExists, m, ctx.moduleName, KnownModules).None? ==>
            r.imports[0] == "/* TODO: Ajustar el namespace para el modelo '" + m + "' */")
  {
    var m := ctx.foreignIdModel(a);
    var line := match FindModelNamespace(ctx.classExists, m, ctx.moduleName, KnownModules)
      case Some(ns) => "use " + ns + ";"
      case None => "/* TODO: Ajustar el namespace para el modelo '" + m + "' */";
    Outcome(FactoryCall(m), [line])
  }

  /** The strategies' `generate`. */
  function Apply(s: Strategy, ctx: Context, a: Attribute): Outcome {
    match s
    case Text => Outcome("$this->faker->paragraph()", [])
    case Integer => Outcome("$this->faker->randomNumber()", [])
    case Boolean => Outcome("$this->faker->boolean()", [])
    case Date => Outcome("$this->faker->dateTime()", [])
    case Enum => Outcome(EnumValue(a), [])
    case ForeignId => ForeignIdValue(ctx, a)
    case Foreign => ForeignValue(ctx, a)
  }

  /** The four constant strategies ignore the attribute and add no import. */
  lemma ConstantStrategies(ctx: Context, a: Attribute, b: Attribute)
    ensures Apply(Text, ctx, a) == Apply(Text, ctx, b) == Outcome("$this->faker->paragraph()", [])
    ensures Apply(Integer, ctx, a) == Apply(Integer, ctx, b) == Outcome("$this->faker->randomNumber()", [])
    ensures Apply(Boolean, ctx, a) == Apply(Boolean, ctx, b) == Outcome("$this->faker->boolean()", [])
    ensures Apply(Date, ctx, a) == Apply(Date, ctx, b) == Outcome("$this->faker->dateTime()", [])
  {
  }

  /** The type the generator dispatches on: `string` when missing. */
  function TypeOf(a: Attribute): string {
    a.typeName.GetOr("string")
  }

  const WordExpr: string := "$this->faker->word()"

  /**
   * `generateAttributeValue`: a matching name heuristic wins over any strategy; otherwise the
   * type's strategy; otherwise the word fallback, which also covers a missing type.
   */
  function AttributeValue(ctx: Context, a: Attribute): (r: Outcome)
    ensures Heuristic(a.name).Some? ==> r == Outcome(Heuristic(a.name).value, [])
    ensures Heuristic(a.name).None? && TypeOf(a) in Strategies ==> r == Apply(Strategies[TypeOf(a)], ctx, a)
    ensures Heuristic(a.name).None? && TypeOf(a) !in Strategies ==> r == Outcome(WordExpr, [])
    ensures a.typeName.None? && Heuristic(a.name).None? ==> r == Outcome(WordExpr, [])
  {
    match Heuristic(a.name)
    case Some(e) => Outcome(e, [])
    case None =>
      match StrategyFor(TypeOf(a))
      case Some(s) => Apply(s, ctx, a)
      case None => Outcome(WordExpr, [])
  }

  // ---------------------------------------------------------------- definition lines

  /** Attribute names that never get a definition line, whatever their type. */
  predicate Skipped(name: string) {
    name in ["id", "created_at", "updated_at", "deleted_at"]
  }

  /** The attributes that get a line, in declaration order. */
  function Kept(attributes: seq<Attribute>): (r: seq<Attribute>)
    ensures |r| <= |attributes|
    ensures forall a :: a in r <==> a in attributes && !Skipped(a.name)
    decreases |attributes|
  {
    if |attributes| == 0 then []
    else
      var rest := Kept(attributes[1..]);
      assert forall a :: a in attributes <==> a == attributes[0] || a in attributes[1..];
      if Skipped(attributes[0].name) then rest else [attributes[0]] + rest
  }

  /** Keeping distributes over concatenation, so declaration order and repeated entries are
      kept as they are. */
  lemma {:induction false} KeptAppend(a: seq<Attribute>, b: seq<Attribute>)
    ensures Kept(a + b) == Kept(a) + Kept(b)
    decreases |a|
  {
    if |a| == 0 {
      assert a + b == b;
    } else {
      assert (a + b)[1..] == a[1..] + b;
      KeptAppend(a[1..], b);
    }
  }

  /** A single attribute is kept exactly when its name is not one of the skipped names. */
  lemma KeptOne(a: Attribute)
    ensures Kept([a]) == if Skipped(a.name) then [] else [a]
  {
    assert [a][1..] == [];
  }

  /** One definition line: `'{name}' => {expr},`. */
  function Line(ctx: Context, a: Attribute): string {
    "'" + a.name + "' => " + AttributeValue(ctx, a).expr + ","
  }

  /** The definition lines and, in the order the strategies added them, the `use` lines. */
  function Definitions(ctx: Context, attributes: seq<Attribute>): (r: (seq<string>, seq<string>))
    ensures |r.0| == |Kept(attributes)|
    ensures forall i :: 0 <= i < |r.0| ==> r.0[i] == Line(ctx, Kept(attributes)[i])
    decreases |attributes|
  {
    if |attributes| == 0 then ([], [])
    else
      var rest := Definitions(ctx, attributes[1..]);
      var a := attributes[0];
      if Skipped(a.name) then rest
      else ([Line(ctx, a)] + rest.0, AttributeValue(ctx, a).imports + rest.1)
  }

  /** The lines of a split list are those of its first part followed by those of the second. */
  lemma DefinitionLinesAppend(ctx: Context, a: seq<Attribute>, b: seq<Attribute>)
    ensures Definitions(ctx, a + b).0 == Definitions(ctx, a).0 + Definitions(ctx, b).0
  {
    KeptAppend(a, b);
    var l, x, y := Definitions(ctx, a + b).0, Definitions(ctx, a).0, Definitions(ctx, b).0;
    assert |l| == |x + y|;
    forall i | 0 <= i < |l|
      ensures l[i] == (x + y)[i]
    {
      if i < |x| {
        assert Kept(a + b)[i] == Kept(a)[i];
      } else {
        assert Kept(a + b)[i] == Kept(b)[i - |x|];
      }
    }
  }

  /** A single attribute contributes its own line, or none when its name is skipped. */
  lemma DefinitionLineOne(ctx: Context, a: Attribute)
    ensures Definitions(ctx, [a]).0 == if Skipped(a.name) then [] else [Line(ctx, a)]
  {
    KeptOne(a);
  }

  /** The imports are those of the kept attributes, concatenated in order. */
  function KeptImports(ctx: Context, kept: seq<Attribute>): seq<string>
    decreases |kept|
  {
    if |kept| == 0 then [] else AttributeValue(ctx, kept[0]).imports + KeptImports(ctx, kept[1..])
  }

  lemma {:induction false} DefinitionImports(ctx: Context, attributes: seq<Attribute>)
    ensures Definitions(ctx, attributes).1 == KeptImports(ctx, Kept(attributes))
    decreases |attributes|
  {
    if |attributes| > 0 {
      DefinitionImports(ctx, attributes[1..]);
      var k := Kept(attributes[1..]);
      if !Skipped(attributes[0].name) {
        assert ([attributes[0]] + k)[1..] == k;
      }
    }
  }

  /** The continuation separator and the padding the generator puts around the first line. */
  const Pad: string := "            "

  /** `generateDefinitionAttributes`: the first line, padding, a newline, padding, then the
      other lines joined by a newline and padding. */
  function RenderDefinitions(lines: seq<string>): string {
    var first := if |lines| == 0 then "" else lines[0];
    var others := if |lines| == 0 then [] else lines[1..];
    first + Pad + "\n" + Pad + Join(others, "\n" + Pad)
  }

  /** The rendered text split at newlines, before trimming. */
  function Pieces(lines: seq<string>): (r: seq<string>)
    requires |lines| > 0
    ensures |r| == if |lines| == 1 then 2 else |lines|
  {
    [lines[0] + Pad] + (if |lines| == 1 then [Pad] else PadEach(lines[1..]))
  }

  function PadEach(lines: seq<string>): (r: seq<string>)
    ensures |r| == |lines| && forall i :: 0 <= i < |r| ==> r[i] == Pad + lines[i]
  {
    seq(|lines|, i requires 0 <= i < |lines| => Pad + lines[i])
  }

  lemma {:induction false} JoinPadded(lines: seq<string>)
    requires |lines| > 0
    ensures Pad + Join(lines, "\n" + Pad) == Join(PadEach(lines), "\n")
    decreases |lines|
  {
    if |lines| > 1 {
      JoinPadded(lines[1..]);
      assert PadEach(lines)[1..] == PadEach(lines[1..]);
    }
  }

  lemma RenderIsJoin(lines: seq<string>)
    requires |lines| > 0
    ensures RenderDefinitions(lines) == Join(Pieces(lines), "\n")
  {
    var first := lines[0] + Pad;
    if |lines| == 1 {
      assert RenderDefinitions(lines) == first + "\n" + Pad;
    } else {
      JoinPadded(lines[1..]);
      var rest := PadEach(lines[1..]);
      assert Pieces(lines) == [first] + rest;
      assert Pieces(lines)[1..] == rest;
      assert RenderDefinitions(lines) == first + "\n" + (Pad + Join(lines[1..], "\n" + Pad));
    }
  }

  /** A line the rendering keeps apart: no newline, no whitespace at either end. */
  predicate Separable(line: string) {
    '\n' !in line && |line| > 0 && !IsTrimChar(line[0]) && !IsTrimChar(line[|line| - 1])
  }

  /** The trimmed, non-blank pieces of a text split at newlines. */
  function TrimmedLines(pieces: seq<string>): seq<string>
    decreases |pieces|
  {
    if |pieces| == 0 then []
    else
      var t := Trim(pieces[0]);
      (if t == "" then [] else [t]) + TrimmedLines(pieces[1..])
  }

  lemma AllPad()
    ensures AllTrimChars(Pad)
  {
  }

  lemma {:induction false} TrimmedPadded(lines: seq<string>)
    requires forall i :: 0 <= i < |lines| ==> Separable(lines[i])
    ensures TrimmedLines(PadEach(lines)) == lines
    decreases |lines|
  {
    if |lines| > 0 {
      var p := PadEach(lines);
      AllPad();
      TrimSurrounded(Pad, lines[0], "");
      assert Pad + lines[0] + "" == p[0];
      assert p == [p[0]] + PadEach(lines[1..]);
      TrimmedKeep(p[0], PadEach(lines[1..]));
      TrimmedPadded(lines[1..]);
      assert [lines[0]] + lines[1..] == lines;
    }
  }

  lemma PiecesSeparable(lines: seq<string>)
    requires |lines| > 0
    requires forall i :: 0 <= i < |lines| ==> Separable(lines[i])
    ensures forall k :: 0 <= k < |Pieces(lines)| ==> '\n' !in Pieces(lines)[k]
  {
    var ps := Pieces(lines);
    AllPad();
    forall k | 0 <= k < |ps|
      ensures '\n' !in ps[k]
    {
      if k == 0 {
        assert ps[0] == lines[0] + Pad;
      } else if |lines| == 1 {
        assert ps[k] == Pad;
      } else {
        assert ps[k] == Pad + lines[k];
      }
    }
  }

  lemma TrimFirstPiece(lines: seq<string>)
    requires |lines| > 0 && Separable(lines[0])
    ensures Trim(Pieces(lines)[0]) == lines[0]
  {
    AllPad();
    TrimSurrounded("", lines[0], Pad);
    assert "" + lines[0] + Pad == Pieces(lines)[0];
  }

  lemma TrimmedPieces(lines: seq<string>)
    requires |lines| > 0
    requires forall i :: 0 <= i < |lines| ==> Separable(lines[i])
    ensures TrimmedLines(Pieces(lines)) == lines
  {
    var ps := Pieces(lines);
    TrimFirstPiece(lines);
    assert ps == [ps[0]] + ps[1..];
    TrimmedKeep(ps[0], ps[1..]);
    if |lines| == 1 {
      assert ps[1..] == [Pad];
      TrimmedPad();
    } else {
      assert ps[1..] == PadEach(lines[1..]);
      TrimmedPadded(lines[1..]);
      assert [lines[0]] + lines[1..] == lines;
    }
  }

  /** A piece that is not blank is kept, trimmed, in front of the rest. */
  lemma TrimmedKeep(p: string, ps: seq<string>)
    requires Trim(p) != ""
    ensures TrimmedLines([p] + ps) == [Trim(p)] + TrimmedLines(ps)
  {
    assert ([p] + ps)[0] == p && ([p] + ps)[1..] == ps;
  }

  /** The lone padding piece vanishes. */
  lemma TrimmedPad()
    ensures TrimmedLines([Pad]) == []
  {
    AllPad();
    TrimBlank(Pad);
    assert [Pad][1..] == [];
  }

  /**
   * Every definition line can be read back from the rendered text: splitting it at newlines,
   * trimming each piece and dropping blank ones yields exactly the lines, in order. The
   * padding after the first line and the blank piece a single line leaves behind vanish.
   */
  lemma RenderedLinesRecoverable(lines: seq<string>)
    requires |lines| > 0
    requires forall i :: 0 <= i < |lines| ==> Separable(lines[i])
    ensures TrimmedLines(Explode(RenderDefinitions(lines), '\n')) == lines
  {
    RenderIsJoin(lines);
    PiecesSeparable(lines);
    JoinExplode(Pieces(lines), '\n');
    TrimmedPieces(lines);
  }

  /** An empty definition still carries the padding and the newline. */
  lemma RenderNoLines()
    ensures RenderDefinitions([]) == "            \n            "
  {
  }

  // ---------------------------------------------------------------- import dedup

  predicate NoDuplicates(s: seq<string>) {
    forall i, j :: 0 <= i < j < |s| ==> s[i] != s[j]
  }

  /** `array_unique`: the first occurrence of every line, in the original order. */
  function Dedup(s: seq<string>): (r: seq<string>)
    ensures NoDuplicates(r)
    ensures forall x :: x in r <==> x in s
    decreases |s|
  {
    if |s| == 0 then []
    else
      var init := s[..|s| - 1];
      var r := Dedup(init);
      var last := s[|s| - 1];
      assert forall x :: x in s <==> x in init || x == last by {
        assert s == init + [last];
      }
      if last in r then r else r + [last]
  }

  /** A list without repeats is left as it is. */
  lemma {:induction false} DedupUnique(s: seq<string>)
    requires NoDuplicates(s)
    ensures Dedup(s) == s
    decreases |s|
  {
    if |s| > 0 {
      var init := s[..|s| - 1];
      DedupUnique(init);
      assert s[|s| - 1] !in init;
      assert init + [s[|s| - 1]] == s;
    }
  }

  /** Deduplicating twice is deduplicating once. */
  lemma DedupIdempotent(s: seq<string>)
    ensures Dedup(Dedup(s)) == Dedup(s)
  {
    DedupUnique(Dedup(s));
  }

  /** Appending lines never reorders or removes the lines already kept. */
  lemma {:induction false} DedupExtends(s: seq<string>, t: seq<string>)
    ensures |Dedup(s)| <= |Dedup(s + t)| && Dedup(s + t)[..|Dedup(s)|] == Dedup(s)
    decreases |t|
  {
    if |t| == 0 {
      assert s + t == s;
    } else {
      var init := t[..|t| - 1];
      DedupExtends(s, init);
      assert (s + t)[..|s + t| - 1] == s + init;
    }
  }

  /** `generate`: the rendered definition and the deduplicated `use` lines, one per line. */
  function FactoryFragments(ctx: Context): (string, string) {
    var d := Definitions(ctx, ctx.component.attributes);
    (RenderDefinitions(d.0), Join(Dedup(d.1), "\n"))
  }
}

=== FILE: host_provider.dfy ===
/**
 * The decisions the package's own service provider makes while booting the host application:
 * which module providers it registers, which middleware group each route file is loaded
 * under, and where model factories are looked for.
 */
module HostProvider {
  import opened Php

  // ---------------------------------------------------------------- factory names

  const ModulesPrefix: string := "Modules\\"

  /**
   * The closure handed to `Factory::guessFactoryNamesUsing`: a model under `Modules\` gets its
   * factory in the `Database\Factories` namespace of the module named by the second
   * `\`-separated segment; any other model gets `Database\Factories\{basename}Factory`.
   */
  function GuessFactoryName(modelName: string): (r: string)
    ensures EndsWith(r, ClassBasename(modelName) + "Factory")
    ensures !StartsWith(modelName, ModulesPrefix) ==> r == "Database\\Factories\\" + ClassBasename(modelName) + "Factory"
  {
    if StartsWith(modelName, ModulesPrefix) then
      FactoryIn("Modules\\" + ModuleSegment(modelName) + "\\Database\\Factories\\", ClassBasename(modelName))
    else FactoryIn("Database\\Factories\\", ClassBasename(modelName))
  }

  /** The class `{base}Factory` in the namespace `namespace` (given with its trailing `\`). */
  function FactoryIn(namespace: string, base: string): (r: string)
    ensures r == namespace + base + "Factory"
    ensures EndsWith(r, base + "Factory")
  {
    assert (namespace + (base + "Factory"))[|namespace|..] == base + "Factory";
    namespace + (base + "Factory")
  }

  /** `explode('\\', $modelName)[1]` for a name under `Modules\`. */
  function ModuleSegment(modelName: string): string
    requires StartsWith(modelName, ModulesPrefix)
  {
    ModulesNameSplits(modelName);
    Explode(modelName, '\\')[1]
  }

  lemma ModulesNameSplits(modelName: string)
    requires StartsWith(modelName, ModulesPrefix)
    ensures |Explode(modelName, '\\')| >= 2
  {
    var rest := modelName[|ModulesPrefix|..];
    assert modelName == "Modules" + ['\\'] + rest;
    ExplodeFirstPiece("Modules", '\\', rest);
  }

  /**
   * The module is always the segment right after `Modules\`, however deeply the model's class
   * is nested below it.
   */
  lemma GuessTakesSecondSegment(moduleName: string, rest: string)
    requires '\\' !in moduleName
    ensures GuessFactoryName(ModulesPrefix + moduleName + "\\" + rest)
         == "Modules\\" + moduleName + "\\Database\\Factories\\" + ClassBasename(ModulesPrefix + moduleName + "\\" + rest) + "Factory"
  {
    SegmentAfterPrefix(moduleName, rest);
  }

  lemma SegmentAfterPrefix(moduleName: string, rest: string)
    requires '\\' !in moduleName
    ensures StartsWith(ModulesPrefix + moduleName + "\\" + rest, ModulesPrefix)
    ensures ModuleSegment(ModulesPrefix + moduleName + "\\" + rest) == moduleName
  {
    var name := ModulesPrefix + moduleName + "\\" + rest;
    var tail := moduleName + ['\\'] + rest;
    assert name == "Modules" + ['\\'] + tail;
    ExplodeFirstPiece("Modules", '\\', tail);
    ExplodeFirstPiece(moduleName, '\\', rest);
  }

  /** For a model generated into a module, `Modules\{M}\Models\{X}`, the guess is the factory the
      generator writes for it, `Modules\{M}\Database\Factories\{X}Factory`. */
  lemma GuessForGeneratedModel(moduleName: string, model: string)
    requires '\\' !in moduleName && '\\' !in model && '/' !in moduleName && '/' !in model && model != ""
    ensures GuessFactoryName("Modules\\" + moduleName + "\\Models\\" + model)
         == "Modules\\" + moduleName + "\\Database\\Factories\\" + model + "Factory"
  {
    var name := "Modules\\" + moduleName + "\\Models\\" + model;
    assert name == ModulesPrefix + moduleName + "\\" + ("Models\\" + model);
    GuessTakesSecondSegment(moduleName, "Models\\" + model);
    BasenameOfModel(moduleName, model);
  }

  lemma BasenameOfModel(moduleName: string, model: string)
    requires '\\' !in model && '/' !in moduleName && '/' !in model && model != ""
    ensures ClassBasename("Modules\\" + moduleName + "\\Models\\" + model) == model
  {
    var front := "Modules\\" + moduleName + "\\Models";
    var name := front + ['\\'] + model;
    assert name == "Modules\\" + moduleName + "\\Models\\" + model;
    assert '/' !in front;
    assert '/' !in name by {
      assert forall c :: c in name ==> c in front || c == '\\' || c in model;
    }
    assert name[|name| - 1] == model[|model| - 1];
    ClassBasenameIsLastSegment(name);
    LastSegment(front, model);
  }

  lemma {:induction false} LastSegment(front: string, last: string)
    requires '\\' !in last
    ensures AfterLast(front + ['\\'] + last, '\\') == last
    decreases |last|
  {
    var s := front + ['\\'] + last;
    if |last| > 0 {
      var init := last[..|last| - 1];
      assert s[..|s| - 1] == front + ['\\'] + init;
      assert s[|s| - 1] == last[|last| - 1];
      assert '\\' !in init by {
        assert forall c :: c in init ==> c in last;
      }
      LastSegment(front, init);
      assert init + [last[|last| - 1]] == last;
    }
  }

  // ---------------------------------------------------------------- route files

  /** A route file named exactly `api.php` is loaded in the `api` group, every other in `web`. */
  function Middleware(fileName: string): (r: string)
    ensures r == "api" || r == "web"
  {
    if fileName == "api.php" then "api" else "web"
  }

  /** The group each route file of a module is loaded under, in directory order. */
  function RouteGroups(fileNames: seq<string>): (r: seq<(string, string)>)
    ensures |r| == |fileNames|
    ensures forall i :: 0 <= i < |r| ==> r[i].0 == fileNames[i] && (r[i].1 == "api" <==> fileNames[i] == "api.php")
    decreases |fileNames|
  {
    if |fileNames| == 0 then []
    else [(fileNames[0], Middleware(fileNames[0]))] + RouteGroups(fileNames[1..])
  }

  // ---------------------------------------------------------------- module providers

  /** The provider class the make-module command generates for a module. */
  function ProviderClass(moduleName: string): (r: string)
    ensures |r| == 2 * |moduleName| + 34
    ensures StartsWith(r, ModulesPrefix) && EndsWith(r, "ServiceProvider")
  {
    "Modules\\" + moduleName + "\\Providers\\" + moduleName + "ServiceProvider"
  }

  /** Distinct modules have distinct provider classes. */
  lemma ProviderClassInjective(m: string, m': string)
    requires ProviderClass(m) == ProviderClass(m')
    ensures m == m'
  {
    assert |m| == |m'|;
    assert ProviderClass(m)[8..8 + |m|] == m;
    assert ProviderClass(m')[8..8 + |m'|] == m';
  }

  /** The provider class looked up for a directory found under `Modules`: that of
      `Str::studly(basename(dir))`. */
  function DirProvider(inf: Inflector, dir: string): string {
    ProviderClass(inf.studly(Basename(dir)))
  }

  /** The provider classes looked up, one per module directory, in directory order. */
  function ProviderCandidates(inf: Inflector, moduleDirs: seq<string>): (r: seq<string>)
    ensures |r| == |moduleDirs| && forall i :: 0 <= i < |r| ==> r[i] == DirProvider(inf, moduleDirs[i])
  {
    seq(|moduleDirs|, i requires 0 <= i < |moduleDirs| => DirProvider(inf, moduleDirs[i]))
  }

  /** The classes among `classes` that exist, in order. */
  function Existing(classExists: string -> bool, classes: seq<string>): (r: seq<string>)
    ensures |r| <= |classes|
    ensures forall c :: c in r <==> c in classes && classExists(c)
    decreases |classes|
  {
    if |classes| == 0 then []
    else (if classExists(classes[0]) then [classes[0]] else []) + Existing(classExists, classes[1..])
  }

  /** Filtering keeps order: the existing classes of a split list are those of its parts. */
  lemma {:induction false} ExistingAppend(classExists: string -> bool, a: seq<string>, b: seq<string>)
    ensures Existing(classExists, a + b) == Existing(classExists, a) + Existing(classExists, b)
    decreases |a|
  {
    if |a| == 0 {
      assert a + b == b;
    } else {
      assert (a + b)[1..] == a[1..] + b;
      ExistingAppend(classExists, a[1..], b);
    }
  }

  lemma ProviderCandidatesAppend(inf: Inflector, a: seq<string>, b: seq<string>)
    ensures ProviderCandidates(inf, a + b) == ProviderCandidates(inf, a) + ProviderCandidates(inf, b)
  {
    var l, x, y := ProviderCandidates(inf, a + b), ProviderCandidates(inf, a), ProviderCandidates(inf, b);
    assert |l| == |x + y|;
    forall i | 0 <= i < |l|
      ensures l[i] == (x + y)[i]
    {
      if i >= |a| {
        assert (a + b)[i] == b[i - |a|];
      }
    }
  }

  /** Registration follows directory order: the providers of a split directory list are those
      of the first part followed by those of the second. */
  lemma RegisteredInDirectoryOrder(inf: Inflector, classExists: string -> bool, a: seq<string>, b: seq<string>)
    ensures RegisteredProviders(inf, classExists, a + b)
         == RegisteredProviders(inf, classExists, a) + RegisteredProviders(inf, classExists, b)
  {
    ProviderCandidatesAppend(inf, a, b);
    ExistingAppend(classExists, ProviderCandidates(inf, a), ProviderCandidates(inf, b));
  }

  /** One directory registers its own provider exactly when that class exists. */
  lemma RegisteredOne(inf: Inflector, classExists: string -> bool, dir: string)
    ensures RegisteredProviders(inf, classExists, [dir])
         == (if classExists(DirProvider(inf, dir)) then [DirProvider(inf, dir)] else [])
  {
    var c := ProviderCandidates(inf, [dir]);
    assert c == [DirProvider(inf, dir)];
    assert c[1..] == [];
  }

  /** The providers registered for the module directories found under `Modules`: each
      directory's provider class, when that class exists, in directory order. */
  function RegisteredProviders(inf: Inflector, classExists: string -> bool, moduleDirs: seq<string>): (r: seq<string>)
    ensures forall c :: c in r <==>
      (exists i :: 0 <= i < |moduleDirs| && c == DirProvider(inf, moduleDirs[i])) && classExists(c)
  {
    var candidates := ProviderCandidates(inf, moduleDirs);
    assert forall c :: c in candidates <==> exists i :: 0 <= i < |moduleDirs| && c == candidates[i];
    Existing(classExists, candidates)
  }
}

=== FILE: json.dfy ===
/**
 * PHP's `json_encode` with its default flags, for the values an attribute record can carry
 * (null, booleans, integers, strings and lists), and a decoder that reads its output back.
 * With the default flags `/` is escaped and every character outside ASCII is written as a
 * lower-case `\uXXXX` escape, as a UTF-16 surrogate pair above the Basic Multilingual Plane.
 */
module Json {
  import opened Wrappers
  import opened Php

  // ---------------------------------------------------------------- hexadecimal

  function HexDigit(d: nat): char
    requires d < 16
  {
    "0123456789abcdef"[d]
  }

  /** The value of a hexadecimal digit of either case. */
  function HexValue(c: char): Option<nat> {
    if '0' <= c <= '9' then Some(c as int - '0' as int)
    else if 'a' <= c <= 'f' then Some(c as int - 'a' as int + 10)
    else if 'A' <= c <= 'F' then Some(c as int - 'A' as int + 10)
    else None
  }

  lemma HexDigitValue(d: nat)
    requires d < 16
    ensures HexValue(HexDigit(d)) == Some(d)
  {
  }

  /** Four lower-case hexadecimal digits, most significant first. */
  function Hex4(n: nat): (s: string)
    requires n < 0x10000
    ensures |s| == 4
  {
    var n1 := n / 0x10;
    var n2 := n1 / 0x10;
    [HexDigit(n2 / 0x10), HexDigit(n2 % 0x10), HexDigit(n1 % 0x10), HexDigit(n % 0x10)]
  }

  function ParseHex4(s: string): (r: Option<nat>)
    requires |s| == 4
    ensures r.Some? ==> r.value < 0x10000
  {
    match (HexValue(s[0]), HexValue(s[1]), HexValue(s[2]), HexValue(s[3]))
    case (Some(a), Some(b), Some(c), Some(d)) =>
      if a < 16 && b < 16 && c < 16 && d < 16 then Some(a * 0x1000 + b * 0x100 + c * 0x10 + d) else None
    case _ => None
  }

  lemma Hex4RoundTrip(n: nat)
    requires n < 0x10000
    ensures ParseHex4(Hex4(n)) == Some(n)
  {
    var n1 := n / 0x10;
    var n2 := n1 / 0x10;
    assert n2 < 0x100;
    HexDigitValue(n2 / 0x10);
    HexDigitValue(n2 % 0x10);
    HexDigitValue(n1 % 0x10);
    HexDigitValue(n % 0x10);
    assert n == n1 * 0x10 + n % 0x10;
    assert n1 == n2 * 0x10 + n1 % 0x10;
    assert n2 == (n2 / 0x10) * 0x10 + n2 % 0x10;
  }

  // ---------------------------------------------------------------- strings

  /** Characters written as `\uXXXX` when they lie in the Basic Multilingual Plane. */
  predicate NeedsUnicodeEscape(c: char) {
    c as int < 0x20 || 0x80 <= c as int
  }

  /** How `json_encode` writes one character of a string. */
  function EscapeChar(c: char): string {
    if c == '"' then "\\\""
    else if c == '\\' then "\\\\"
    else if c == '/' then "\\/"
    else if c as int == 0x08 then "\\b"
    else if c as int == 0x0C then "\\f"
    else if c == '\n' then "\\n"
    else if c == '\r' then "\\r"
    else if c == '\t' then "\\t"
    else if !NeedsUnicodeEscape(c) then [c]
    else if c as int < 0x10000 then "\\u" + Hex4(c as int)
    else
      var v := c as int - 0x10000;
      "\\u" + Hex4(0xD800 + v / 0x400) + "\\u" + Hex4(0xDC00 + v % 0x400)
  }

  function EscapeAll(s: string): string
    decreases |s|
  {
    if |s| == 0 then "" else EscapeChar(s[0]) + EscapeAll(s[1..])
  }

  /** A JSON string literal. */
  function Quote(s: string): string {
    "\"" + EscapeAll(s) + "\""
  }

  /** Reads the character an escape sequence denotes; `s` starts just after the backslash. */
  function DecodeEscape(s: string): (r: Option<(char, string)>)
    ensures r.Some? ==> |r.value.1| < |s|
  {
    if |s| == 0 then None
    else if s[0] == '"' then Some(('"', s[1..]))
    else if s[0] == '\\' then Some(('\\', s[1..]))
    else if s[0] == '/' then Some(('/', s[1..]))
    else if s[0] == 'b' then Some((0x08 as char, s[1..]))
    else if s[0] == 'f' then Some((0x0C as char, s[1..]))
    else if s[0] == 'n' then Some(('\n', s[1..]))
    else if s[0] == 'r' then Some(('\r', s[1..]))
    else if s[0] == 't' then Some(('\t', s[1..]))
    else if s[0] == 'u' && |s| >= 5 then
      match ParseHex4(s[1..5])
      case None => None
      case Some(hi) =>
        if 0xD800 <= hi < 0xDC00 then
          if |s| >= 11 && s[5] == '\\' && s[6] == 'u' then
            match ParseHex4(s[7..11])
            case None => None
            case Some(lo) =>
              if 0xDC00 <= lo < 0xE000 then
                Some(((0x10000 + (hi - 0xD800) * 0x400 + (lo - 0xDC00)) as char, s[11..]))
              else None
          else None
        else if 0xDC00 <= hi < 0xE000 then None
        else Some((hi as char, s[5..]))
    else None
  }

  /** Reads the body of a string literal up to its closing quote; returns the text and what
      follows the quote. */
  function DecodeChars(s: string): (r: Option<(string, string)>)
    ensures r.Some? ==> |r.value.1| < |s|
    decreases |s|
  {
    if |s| == 0 then None
    else if s[0] == '"' then Some(("", s[1..]))
    else if s[0] == '\\' then
      match DecodeEscape(s[1..])
      case None => None
      case Some((c, rest)) => Cons(c, DecodeChars(rest))
    else Cons(s[0], DecodeChars(s[1..]))
  }

  function Cons(c: char, r: Option<(string, string)>): Option<(string, string)> {
    match r
    case None => None
    case Some((t, rest)) => Some(([c] + t, rest))
  }

  /** Each character's escape is read back as that character, consuming exactly the escape. */
  lemma EscapeCharDecodes(c: char, t: string)
    ensures DecodeChars(EscapeChar(c) + t) == Cons(c, DecodeChars(t))
  {
    if c == '"' || c == '\\' || c == '/' || c as int == 0x08 || c as int == 0x0C
      || c == '\n' || c == '\r' || c == '\t'
    {
      ShortEscapeDecodes(c, t);
    } else if !NeedsUnicodeEscape(c) {
      var s := EscapeChar(c) + t;
      assert s[1..] == t;
    } else if c as int < 0x10000 {
      BmpEscapeDecodes(c, t);
    } else {
      PairEscapeDecodes(c, t);
    }
  }

  lemma ShortEscapeDecodes(c: char, t: string)
    requires c == '"' || c == '\\' || c == '/' || c as int == 0x08 || c as int == 0x0C
      || c == '\n' || c == '\r' || c == '\t'
    ensures DecodeChars(EscapeChar(c) + t) == Cons(c, DecodeChars(t))
  {
    var e := EscapeChar(c);
    var s := e + t;
    assert |e| == 2 && e[0] == '\\';
    assert s[1..] == [e[1]] + t;
    assert s[1..][1..] == t;
  }

  /** An escape read back by `DecodeEscape` is read back inside a string body too. */
  lemma EscapeDecodesVia(e: string, c: char, t: string)
    requires |e| >= 2 && e[0] == '\\'
    requires DecodeEscape(e[1..] + t) == Some((c, t))
    ensures DecodeChars(e + t) == Cons(c, DecodeChars(t))
  {
    var s := e + t;
    assert s[1..] == e[1..] + t;
    EscapeStep(s, c, t);
  }

  /** One step of the string-body reader over an escape. */
  lemma EscapeStep(s: string, c: char, t: string)
    requires |s| > 0 && s[0] == '\\' && DecodeEscape(s[1..]) == Some((c, t))
    ensures DecodeChars(s) == Cons(c, DecodeChars(t))
  {
  }

  lemma BmpEscapeDecodes(c: char, t: string)
    requires NeedsUnicodeEscape(c) && c as int < 0x10000
    requires !(c as int == 0x08 || c as int == 0x0C || c == '\n' || c == '\r' || c == '\t')
    ensures DecodeChars(EscapeChar(c) + t) == Cons(c, DecodeChars(t))
  {
    var n := c as int;
    var e := EscapeChar(c);
    assert e == "\\u" + Hex4(n);
    assert e[1..] == "u" + Hex4(n);
    BmpDecodes(c, t);
    EscapeDecodesVia(e, c, t);
  }

  lemma BmpDecodes(c: char, t: string)
    requires c as int < 0x10000
    ensures DecodeEscape("u" + Hex4(c as int) + t) == Some((c, t))
  {
    var n := c as int;
    Hex4RoundTrip(n);
    UnicodeLayout(Hex4(n), t);
    BmpStep("u" + Hex4(n) + t, c);
  }

  /** The reader on a single `uXXXX` escape outside the surrogate range. */
  lemma BmpStep(x: string, c: char)
    requires |x| >= 5 && x[0] == 'u' && ParseHex4(x[1..5]) == Some(c as int)
    ensures DecodeEscape(x) == Some((c, x[5..]))
  {
  }

  lemma UnicodeLayout(a: string, t: string)
    requires |a| == 4
    ensures var x := "u" + a + t;
      |x| >= 5 && x[0] == 'u' && x[1..5] == a && x[5..] == t
  {
  }

  lemma PairEscapeDecodes(c: char, t: string)
    requires c as int >= 0x10000
    ensures DecodeChars(EscapeChar(c) + t) == Cons(c, DecodeChars(t))
  {
    var v := c as int - 0x10000;
    var hi := 0xD800 + v / 0x400;
    var lo := 0xDC00 + v % 0x400;
    SurrogatesRecombine(c);
    PairEscapeShape(c);
    PairDecodes(hi, lo, t);
    assert (0x10000 + (hi - 0xD800) * 0x400 + (lo - 0xDC00)) as char == c;
    PairEscapeLayout(Hex4(hi), Hex4(lo), t, c);
  }

  lemma PairEscapeLayout(a: string, b: string, t: string, c: char)
    requires DecodeEscape("u" + a + "\\u" + b + t) == Some((c, t))
    ensures DecodeChars("\\u" + a + "\\u" + b + t) == Cons(c, DecodeChars(t))
  {
    var e := "\\u" + a + "\\u" + b;
    assert e[1..] == "u" + a + "\\u" + b;
    assert e + t == "\\u" + a + "\\u" + b + t;
    assert e[1..] + t == "u" + a + "\\u" + b + t;
    EscapeDecodesVia(e, c, t);
  }

  lemma PairEscapeShape(c: char)
    requires c as int >= 0x10000
    ensures EscapeChar(c) == "\\u" + Hex4(0xD800 + (c as int - 0x10000) / 0x400)
                          + "\\u" + Hex4(0xDC00 + (c as int - 0x10000) % 0x400)
  {
  }

  /** The surrogate pair of a character above the Basic Multilingual Plane denotes it. */
  lemma SurrogatesRecombine(c: char)
    requires c as int >= 0x10000
    ensures 0xD800 <= 0xD800 + (c as int - 0x10000) / 0x400 < 0xDC00
    ensures 0xDC00 <= 0xDC00 + (c as int - 0x10000) % 0x400 < 0xE000
    ensures (c as int - 0x10000) / 0x400 * 0x400 + (c as int - 0x10000) % 0x400 + 0x10000 == c as int
  {
  }

  lemma PairDecodes(hi: nat, lo: nat, t: string)
    requires 0xD800 <= hi < 0xDC00 && 0xDC00 <= lo < 0xE000
    ensures DecodeEscape("u" + Hex4(hi) + "\\u" + Hex4(lo) + t)
         == Some(((0x10000 + (hi - 0xD800) * 0x400 + (lo - 0xDC00)) as char, t))
  {
    Hex4RoundTrip(hi);
    Hex4RoundTrip(lo);
    PairLayout(Hex4(hi), Hex4(lo), t);
    PairStep("u" + Hex4(hi) + "\\u" + Hex4(lo) + t, hi, lo);
  }

  /** The reader on a surrogate pair escape. */
  lemma PairStep(x: string, hi: nat, lo: nat)
    requires |x| >= 11 && x[0] == 'u' && x[5] == '\\' && x[6] == 'u'
    requires ParseHex4(x[1..5]) == Some(hi) && ParseHex4(x[7..11]) == Some(lo)
    requires 0xD800 <= hi < 0xDC00 && 0xDC00 <= lo < 0xE000
    ensures DecodeEscape(x) == Some(((0x10000 + (hi - 0xD800) * 0x400 + (lo - 0xDC00)) as char, x[11..]))
  {
  }

  lemma PairLayout(a: string, b: string, t: string)
    requires |a| == 4 && |b| == 4
    ensures var x := "u" + a + "\\u" + b + t;
      |x| >= 11 && x[0] == 'u' && x[1..5] == a && x[5] == '\\' && x[6] == 'u' && x[7..11] == b && x[11..] == t
  {
    var x := "u" + a + "\\u" + b + t;
    assert x == "u" + a + "\\u" + (b + t);
  }

  lemma {:induction false} QuoteBodyDecodes(s: string, rest: string)
    ensures DecodeChars(EscapeAll(s) + "\"" + rest) == Some((s, rest))
    decreases |s|
  {
    if |s| == 0 {
      assert EscapeAll(s) + "\"" + rest == "\"" + rest;
    } else {
      var t := EscapeAll(s[1..]) + "\"" + rest;
      assert EscapeAll(s) + "\"" + rest == EscapeChar(s[0]) + t;
      EscapeCharDecodes(s[0], t);
      QuoteBodyDecodes(s[1..], rest);
      assert [s[0]] + s[1..] == s;
    }
  }

  // ---------------------------------------------------------------- values

  /** `json_encode($v)`; lists are written without spaces. */
  function Encode(v: Value): string
    decreases v, 1, 0
  {
    match v
    case VNull => "null"
    case VBool(b) => if b then "true" else "false"
    case VInt(i) => IntToString(i)
    case VStr(s) => Quote(s)
    case VList(items) => "[" + EncodeItemsFrom(v, 0) + "]"
  }

  /** The comma-separated encodings of `v.items[k..]`. */
  function EncodeItemsFrom(v: Value, k: nat): string
    requires v.VList? && k <= |v.items|
    decreases v, 0, |v.items| - k
  {
    if k == |v.items| then ""
    else if k + 1 == |v.items| then Encode(v.items[k])
    else Encode(v.items[k]) + "," + EncodeItemsFrom(v, k + 1)
  }

  function Encodings(items: seq<Value>): (r: seq<string>)
    ensures |r| == |items| && forall k :: 0 <= k < |items| ==> r[k] == Encode(items[k])
  {
    seq(|items|, k requires 0 <= k < |items| => Encode(items[k]))
  }

  /** A list is written as its items' encodings, in list order, between brackets. */
  lemma EncodeListInOrder(items: seq<Value>)
    ensures Encode(VList(items)) == "[" + Join(Encodings(items), ",") + "]"
  {
    EncodeItemsJoin(VList(items), 0);
    assert Encodings(items)[0..] == Encodings(items);
  }

  lemma {:induction false} EncodeItemsJoin(v: Value, k: nat)
    requires v.VList? && k <= |v.items|
    ensures EncodeItemsFrom(v, k) == Join(Encodings(v.items)[k..], ",")
    decreases |v.items| - k
  {
    var es := Encodings(v.items)[k..];
    if k + 1 < |v.items| {
      EncodeItemsJoin(v, k + 1);
      assert es[1..] == Encodings(v.items)[k + 1..];
    }
  }

  // ---------------------------------------------------------------- decoding values

  /** Length of the run of decimal digits `s` starts with. */
  function DigitRun(s: string): (k: nat)
    ensures k <= |s| && AllDigits(s[..k])
    ensures k < |s| ==> !IsDigit(s[k])
    decreases |s|
  {
    if |s| > 0 && IsDigit(s[0]) then
      var k := 1 + DigitRun(s[1..]);
      assert s[..k] == [s[0]] + s[1..][..k - 1];
      k
    else 0
  }

  function DecodeNat(s: string): (r: Option<(nat, string)>)
    ensures r.Some? ==> |r.value.1| < |s|
  {
    var k := DigitRun(s);
    if k == 0 then None else Some((DigitsValue(s[..k]), s[k..]))
  }

  /** Reads one value from the front of `s`; returns it and what follows. */
  function DecodeValue(s: string): (r: Option<(Value, string)>)
    ensures r.Some? ==> |r.value.1| < |s|
    decreases |s|, 1
  {
    if |s| == 0 then None
    else if s[0] == 'n' || s[0] == 't' || s[0] == 'f' then DecodeLiteral(s)
    else if s[0] == '"' then DecodeString(s[1..])
    else if s[0] == '[' then
      if |s| > 1 && s[1] == ']' then Some((VList([]), s[2..]))
      else match DecodeItems(s[1..])
        case None => None
        case Some((items, rest)) => Some((VList(items), rest))
    else DecodeInt(s)
  }

  function DecodeLiteral(s: string): (r: Option<(Value, string)>)
    ensures r.Some? ==> |r.value.1| < |s|
  {
    if StartsWith(s, "null") then Some((VNull, s[4..]))
    else if StartsWith(s, "true") then Some((VBool(true), s[4..]))
    else if StartsWith(s, "false") then Some((VBool(false), s[5..]))
    else None
  }

  function DecodeString(s: string): (r: Option<(Value, string)>)
    ensures r.Some? ==> |r.value.1| < |s|
  {
    match DecodeChars(s)
    case None => None
    case Some((t, rest)) => Some((VStr(t), rest))
  }

  function DecodeInt(s: string): (r: Option<(Value, string)>)
    ensures r.Some? ==> |r.value.1| < |s|
  {
    if |s| > 0 && s[0] == '-' then
      match DecodeNat(s[1..])
      case None => None
      case Some((n, rest)) => Some((VInt(-(n as int)), rest))
    else
      match DecodeNat(s)
      case None => None
      case Some((n, rest)) => Some((VInt(n), rest))
  }

  /** Reads the items of a non-empty list up to and including its closing bracket. */
  function DecodeItems(s: string): (r: Option<(seq<Value>, string)>)
    ensures r.Some? ==> |r.value.1| < |s|
    decreases |s|, 2
  {
    match DecodeValue(s)
    case None => None
    case Some((v, rest)) =>
      if |rest| > 0 && rest[0] == ']' then Some(([v], rest[1..]))
      else if |rest| > 0 && rest[0] == ',' then
        match DecodeItems(rest[1..])
        case None => None
        case Some((vs, after)) => Some(([v] + vs, after))
      else None
  }

  /** `json_decode`: a whole text holding exactly one value. */
  function Decode(s: string): Option<Value> {
    match DecodeValue(s)
    case Some((v, rest)) => if rest == "" then Some(v) else None
    case None => None
  }

  /** What may follow a value inside an encoding. */
  predicate Delimited(rest: string) {
    rest == "" || rest[0] == ',' || rest[0] == ']'
  }

  lemma NatDecodes(n: nat, rest: string)
    requires rest == "" || !IsDigit(rest[0])
    ensures DecodeNat(NatToString(n) + rest) == Some((n, rest))
  {
    var d := NatToString(n);
    var s := d + rest;
    DigitRunOf(d, rest);
    assert s[..|d|] == d && s[|d|..] == rest;
    NatToStringRoundTrip(n);
  }

  lemma {:induction false} DigitRunOf(d: string, rest: string)
    requires AllDigits(d)
    requires rest == "" || !IsDigit(rest[0])
    ensures DigitRun(d + rest) == |d|
    decreases |d|
  {
    if |d| > 0 {
      assert (d + rest)[1..] == d[1..] + rest;
      DigitRunOf(d[1..], rest);
    } else {
      assert d + rest == rest;
    }
  }

  lemma NatValueDecodes(n: nat, rest: string)
    requires Delimited(rest)
    ensures DecodeValue(NatToString(n) + rest) == Some((VInt(n), rest))
  {
    var s := NatToString(n) + rest;
    NatDecodes(n, rest);
    assert IsDigit(s[0]);
  }

  lemma LiteralDecodes(v: Value, rest: string)
    requires v.VNull? || v.VBool?
    ensures DecodeValue(Encode(v) + rest) == Some((v, rest))
  {
    var s := Encode(v) + rest;
    if v.VNull? {
      assert s[..4] == "null" && s[4..] == rest;
    } else if v.b {
      assert s[..4] == "true" && s[4..] == rest;
      assert s[0] == 't' && !StartsWith(s, "null");
    } else {
      assert s[..5] == "false" && s[5..] == rest;
      assert s[0] == 'f' && !StartsWith(s, "null") && !StartsWith(s, "true");
    }
  }

  lemma IntDecodes(i: int, rest: string)
    requires Delimited(rest)
    ensures DecodeValue(Encode(VInt(i)) + rest) == Some((VInt(i), rest))
  {
    IntStringDecodes(i, rest);
  }

  lemma IntStringDecodes(i: int, rest: string)
    requires Delimited(rest)
    ensures DecodeValue(IntToString(i) + rest) == Some((VInt(i), rest))
  {
    if i < 0 {
      var n: nat := -i;
      assert IntToString(i) == "-" + NatToString(n);
      NegativeDecodes(n, rest);
      assert VInt(-(n as int)) == VInt(i);
    } else {
      var n: nat := i;
      assert IntToString(i) == NatToString(n);
      NatValueDecodes(n, rest);
    }
  }

  lemma NegativeDecodes(n: nat, rest: string)
    requires Delimited(rest)
    ensures DecodeValue("-" + NatToString(n) + rest) == Some((VInt(-(n as int)), rest))
  {
    var s := "-" + NatToString(n) + rest;
    assert s[1..] == NatToString(n) + rest;
    NatDecodes(n, rest);
    NegativeStep(s, n, rest);
  }

  /** The reader on a minus sign followed by digits. */
  lemma NegativeStep(s: string, n: nat, rest: string)
    requires |s| > 0 && s[0] == '-' && DecodeNat(s[1..]) == Some((n, rest))
    ensures DecodeValue(s) == Some((VInt(-(n as int)), rest))
  {
  }

  lemma StringDecodes(t: string, rest: string)
    ensures DecodeValue(Encode(VStr(t)) + rest) == Some((VStr(t), rest))
  {
    var s := Encode(VStr(t)) + rest;
    assert s == "\"" + (EscapeAll(t) + "\"" + rest);
    assert s[1..] == EscapeAll(t) + "\"" + rest;
    QuoteBodyDecodes(t, rest);
  }

  /** Decoding an encoding gives back the value and leaves what followed it. */
  lemma {:induction false} DecodeEncoded(v: Value, rest: string)
    requires Delimited(rest)
    ensures DecodeValue(Encode(v) + rest) == Some((v, rest))
    decreases v, 1, 0
  {
    match v
    case VNull => LiteralDecodes(v, rest);
    case VBool(_) => LiteralDecodes(v, rest);
    case VInt(i) => IntDecodes(i, rest);
    case VStr(t) => StringDecodes(t, rest);
    case VList(items) =>
      var s := Encode(v) + rest;
      if |items| == 0 {
        assert EncodeItemsFrom(v, 0) == "";
        assert s == "[]" + rest;
        assert s[2..] == rest;
      } else {
        assert s == "[" + (EncodeItemsFrom(v, 0) + "]" + rest);
        assert s[1..] == EncodeItemsFrom(v, 0) + "]" + rest;
        DecodeItemsEncoded(v, 0, rest);
        assert v.items[0..] == items;
        assert s[0] == '[';
        if |s| > 1 && s[1] == ']' {
          EncodeItemsFromStart(v);
          assert false;
        }
      }
  }

  /** A non-empty list's encoding starts with the first item's, which never starts with `]`. */
  lemma EncodeItemsFromStart(v: Value)
    requires v.VList? && |v.items| > 0
    ensures |EncodeItemsFrom(v, 0)| > 0 && EncodeItemsFrom(v, 0)[0] != ']'
  {
    EncodeStart(v.items[0]);
    var e := Encode(v.items[0]);
    if |v.items| > 1 {
      assert EncodeItemsFrom(v, 0) == e + "," + EncodeItemsFrom(v, 1);
    }
  }

  lemma EncodeStart(v: Value)
    ensures |Encode(v)| > 0 && Encode(v)[0] != ']'
  {
    match v
    case VInt(i) =>
      if i >= 0 { assert IsDigit(NatToString(i)[0]); }
    case _ =>
  }

  lemma {:induction false} DecodeItemsEncoded(v: Value, k: nat, rest: string)
    requires v.VList? && k < |v.items|
    requires Delimited(rest)
    ensures DecodeItems(EncodeItemsFrom(v, k) + "]" + rest) == Some((v.items[k..], rest))
    decreases v, 0, |v.items| - k
  {
    var item := v.items[k];
    if k + 1 == |v.items| {
      var s := Encode(item) + ("]" + rest);
      assert EncodeItemsFrom(v, k) + "]" + rest == s;
      DecodeEncoded(item, "]" + rest);
      LastItemStep(s, item, rest);
      assert v.items[k..] == [item];
    } else {
      var tail := EncodeItemsFrom(v, k + 1) + "]" + rest;
      var s := Encode(item) + ("," + tail);
      assert EncodeItemsFrom(v, k) + "]" + rest == s;
      DecodeEncoded(item, "," + tail);
      DecodeItemsEncoded(v, k + 1, rest);
      NextItemStep(s, item, tail, v.items[k + 1..], rest);
      assert v.items[k..] == [item] + v.items[k + 1..];
    }
  }

  /** The item reader on an item followed by the closing bracket. */
  lemma LastItemStep(s: string, item: Value, rest: string)
    requires DecodeValue(s) == Some((item, "]" + rest))
    ensures DecodeItems(s) == Some(([item], rest))
  {
    assert ("]" + rest)[1..] == rest;
  }

  /** The item reader on an item followed by a comma and further items. */
  lemma NextItemStep(s: string, item: Value, tail: string, items: seq<Value>, rest: string)
    requires DecodeValue(s) == Some((item, "," + tail))
    requires DecodeItems(tail) == Some((items, rest))
    ensures DecodeItems(s) == Some(([item] + items, rest))
  {
    assert ("," + tail)[1..] == tail;
  }

  /** `json_decode(json_encode($v)) == $v` for every value an attribute record can carry. */
  lemma RoundTrip(v: Value)
    ensures Decode(Encode(v)) == Some(v)
  {
    DecodeEncoded(v, "");
    assert Encode(v) + "" == Encode(v);
  }
}

=== FILE: migration.dfy ===
/**
 * The migration generator: the schema-builder lines compiled from a component's attribute
 * list, and the per-process counter that makes migration file names unique and sortable.
 * The schema compiler exists twice in the source, once in the migration generator (lines
 * indented by twelve spaces) and once in the older make-module command (no indentation).
 */
module Migration {
  import opened Wrappers
  import opened Php
  import opened Attributes

  /** The indentation the migration generator puts before every line but the first. */
  const Indent: string := "            "

  const IdLine: string := "$table->id();\n"
  const TimestampsCall: string := "$table->timestamps();"

  /** The `type` key as interpolated into `$table->{$type}(...)`: missing reads as empty. */
  function TypeText(a: Attribute): string {
    a.typeName.GetOr("")
  }

  function NullableSuffix(a: Attribute): string {
    if Truthy(a.nullable) then "->nullable()" else ""
  }

  /** The builder call for one column, without indentation or the closing `;`. */
  function ColumnCall(a: Attribute): string
    requires !IsRelationship(a)
  {
    if a.typeName == Some("foreignId") then
      "$table->foreignId('" + a.name + "')"
      + (if Truthy(a.references) && Truthy(a.on) then "->constrained('" + Interpolate(a.on) + "')" else "")
      + NullableSuffix(a)
    else
      "$table->" + TypeText(a) + "('" + a.name + "'"
      + (if Truthy(a.length) then ", " + Interpolate(a.length) else "")
      + ")" + NullableSuffix(a)
  }

  /** One builder call per non-relationship attribute, in declaration order. */
  function ColumnLines(attributes: seq<Attribute>): (r: seq<string>)
    ensures |r| == |Columns(attributes)|
    ensures forall i :: 0 <= i < |r| ==> r[i] == ColumnCall(Columns(attributes)[i])
  {
    var cols := Columns(attributes);
    seq(|cols|, i requires 0 <= i < |cols| => ColumnCall(cols[i]))
  }

  /** Each call on its own line: indentation, the call, `;` and a newline. */
  function Body(lines: seq<string>, indent: string): string
    decreases |lines|
  {
    if |lines| == 0 then "" else indent + lines[0] + ";\n" + Body(lines[1..], indent)
  }

  /**
   * The table schema: an empty list yields the identity and timestamps calls separated by
   * `emptyGap`; otherwise the identity call, one line per column and the timestamps call,
   * whatever the attributes themselves declare.
   */
  function Schema(attributes: seq<Attribute>, indent: string, emptyGap: string): (r: string)
    ensures StartsWith(r, IdLine) && EndsWith(r, TimestampsCall)
  {
    if |attributes| == 0 then IdLine + emptyGap + TimestampsCall
    else IdLine + Body(ColumnLines(attributes), indent) + indent + TimestampsCall
  }

  /** `MigrationGenerator::getMigrationSchema`. */
  function GeneratorSchema(attributes: seq<Attribute>): (r: string)
    ensures attributes == [] ==> r == IdLine + Indent + TimestampsCall
    ensures StartsWith(r, IdLine) && EndsWith(r, TimestampsCall)
  {
    Schema(attributes, Indent, Indent)
  }

  /** `MakeModuleCommand::getMigrationSchema`. */
  function CommandSchema(attributes: seq<Attribute>): (r: string)
    ensures attributes == [] ==> r == IdLine + " " + TimestampsCall
    ensures StartsWith(r, IdLine) && EndsWith(r, TimestampsCall)
  {
    Schema(attributes, "", " ")
  }

  // ---------------------------------------------------------------- order and skipping

  lemma {:induction false} BodyAppend(lines: seq<string>, line: string, indent: string)
    ensures Body(lines + [line], indent) == Body(lines, indent) + indent + line + ";\n"
    decreases |lines|
  {
    if |lines| == 0 {
      assert lines + [line] == [line] + [];
      BodyCons(line, [], indent);
    } else {
      var rest := lines[1..];
      assert lines == [lines[0]] + rest;
      assert lines + [line] == [lines[0]] + (rest + [line]);
      BodyCons(lines[0], rest + [line], indent);
      BodyCons(lines[0], rest, indent);
      BodyAppend(rest, line, indent);
    }
  }

  /** The body of a list is its first line's followed by the rest's. */
  lemma BodyCons(line: string, rest: seq<string>, indent: string)
    ensures Body([line] + rest, indent) == indent + line + ";\n" + Body(rest, indent)
  {
    assert ([line] + rest)[0] == line && ([line] + rest)[1..] == rest;
  }

  /** The column lines of two lists are the lines of the first followed by those of the second. */
  lemma ColumnLinesAppend(a: seq<Attribute>, b: seq<Attribute>)
    ensures ColumnLines(a + b) == ColumnLines(a) + ColumnLines(b)
  {
    ColumnsAppend(a, b);
  }

  /**
   * Appending a column to a non-empty list inserts its line just before the timestamps line.
   */
  lemma SchemaAppendColumn(attributes: seq<Attribute>, x: Attribute, indent: string, emptyGap: string)
    requires |attributes| > 0 && !IsRelationship(x)
    ensures Schema(attributes + [x], indent, emptyGap)
         == IdLine + Body(ColumnLines(attributes), indent) + indent + ColumnCall(x) + ";\n" + indent + TimestampsCall
  {
    var lines := ColumnLines(attributes);
    var call := ColumnCall(x);
    var b := Body(lines, indent);
    var longer := Body(ColumnLines(attributes + [x]), indent);
    SchemaUnfold(attributes + [x], indent, emptyGap);
    assert longer == b + indent + call + ";\n" by {
      LinesAppendOne(attributes, x);
      BodyAppend(lines, call, indent);
    }
    Regroup(IdLine, b, indent, call, TimestampsCall);
  }

  lemma Regroup(head: string, b: string, indent: string, call: string, tail: string)
    ensures head + (b + indent + call + ";\n") + indent + tail == head + b + indent + call + ";\n" + indent + tail
  {
  }

  lemma SchemaUnfold(attributes: seq<Attribute>, indent: string, emptyGap: string)
    requires |attributes| > 0
    ensures Schema(attributes, indent, emptyGap) == IdLine + Body(ColumnLines(attributes), indent) + indent + TimestampsCall
  {
  }

  /** Appending a relationship entry to a non-empty list changes nothing. */
  lemma SchemaAppendRelationship(attributes: seq<Attribute>, x: Attribute, indent: string, emptyGap: string)
    requires |attributes| > 0 && IsRelationship(x)
    ensures Schema(attributes + [x], indent, emptyGap) == Schema(attributes, indent, emptyGap)
  {
    ColumnsAppend(attributes, [x]);
    assert Columns([x]) == [];
    assert Columns(attributes + [x]) == Columns(attributes);
  }

  lemma LinesAppendOne(attributes: seq<Attribute>, x: Attribute)
    requires !IsRelationship(x)
    ensures ColumnLines(attributes + [x]) == ColumnLines(attributes) + [ColumnCall(x)]
  {
    ColumnsAppend(attributes, [x]);
    assert Columns([x]) == [x];
    var l, r := ColumnLines(attributes + [x]), ColumnLines(attributes) + [ColumnCall(x)];
    assert |l| == |r|;
    forall i | 0 <= i < |l|
      ensures l[i] == r[i]
    {
      if i < |Columns(attributes)| {
        assert Columns(attributes + [x])[i] == Columns(attributes)[i];
      } else {
        assert Columns(attributes + [x])[i] == x;
      }
    }
  }

  /** A non-empty list of relationship entries only compiles, in the generator, to exactly
      what the empty list compiles to. */
  lemma GeneratorRelationshipsOnly(attributes: seq<Attribute>)
    requires |attributes| > 0
    requires forall i :: 0 <= i < |attributes| ==> IsRelationship(attributes[i])
    ensures GeneratorSchema(attributes) == GeneratorSchema([])
  {
    NoColumns(attributes);
  }

  /** In the command the two differ: the empty list puts a space before the timestamps call,
      the relationship-only list puts nothing. */
  lemma CommandRelationshipsOnly(attributes: seq<Attribute>)
    requires |attributes| > 0
    requires forall i :: 0 <= i < |attributes| ==> IsRelationship(attributes[i])
    ensures CommandSchema(attributes) == IdLine + TimestampsCall
    ensures CommandSchema(attributes) != CommandSchema([])
  {
    NoColumns(attributes);
    SchemaUnfold(attributes, "", " ");
    assert Body([], "") == "";
    assert CommandSchema(attributes) == IdLine + TimestampsCall;
    assert CommandSchema([]) == IdLine + " " + TimestampsCall;
  }

  lemma {:induction false} NoColumns(attributes: seq<Attribute>)
    requires forall i :: 0 <= i < |attributes| ==> IsRelationship(attributes[i])
    ensures ColumnLines(attributes) == []
    decreases |attributes|
  {
    if |attributes| > 0 {
      NoColumns(attributes[1..]);
    }
  }

  // ---------------------------------------------------------------- one column line

  /** A `foreignId` line continues with `->constrained('{on}')` exactly when both
      `references` and `on` are truthy. */
  lemma ForeignIdConstrained(a: Attribute)
    requires a.typeName == Some("foreignId")
    ensures var head := "$table->foreignId('" + a.name + "')";
      StartsWith(ColumnCall(a), head)
      && (StartsWith(ColumnCall(a)[|head|..], "->constrained(") <==> Truthy(a.references) && Truthy(a.on))
      && (Truthy(a.references) && Truthy(a.on) ==>
            StartsWith(ColumnCall(a)[|head|..], "->constrained('" + Interpolate(a.on) + "')"))
  {
    var head := "$table->foreignId('" + a.name + "')";
    var call := ColumnCall(a);
    var tail := call[|head|..];
    assert call == head + tail;
    if !(Truthy(a.references) && Truthy(a.on)) {
      assert tail == NullableSuffix(a);
    } else {
      assert tail == "->constrained('" + Interpolate(a.on) + "')" + NullableSuffix(a);
    }
  }

  /** `->nullable()` closes the line when `nullable` is truthy; otherwise it is absent from the
      end of every `foreignId` line and of every line without a length. */
  lemma NullableLast(a: Attribute)
    requires !IsRelationship(a)
    ensures Truthy(a.nullable) ==> EndsWith(ColumnCall(a), "->nullable()")
    ensures !Truthy(a.nullable) && (a.typeName == Some("foreignId") || !Truthy(a.length))
            ==> !EndsWith(ColumnCall(a), "->nullable()")
  {
    var call := ColumnCall(a);
    if !Truthy(a.nullable) && (a.typeName == Some("foreignId") || !Truthy(a.length)) {
      assert |call| >= 2 && call[|call| - 2] == '\'';
    }
  }

  /** Other columns render as `$table->{type}('{name}'`, then `, {length}` exactly when the
      length is truthy, then `)`. */
  lemma PlainColumnShape(a: Attribute)
    requires !IsRelationship(a) && a.typeName != Some("foreignId")
    ensures var head := "$table->" + TypeText(a) + "('" + a.name + "'";
      StartsWith(ColumnCall(a), head)
      && (Truthy(a.length) ==> StartsWith(ColumnCall(a)[|head|..], ", " + Interpolate(a.length) + ")"))
      && (!Truthy(a.length) ==> ColumnCall(a)[|head|..] == ")" + NullableSuffix(a))
  {
    var head := "$table->" + TypeText(a) + "('" + a.name + "'";
    var call := ColumnCall(a);
    assert call == head + call[|head|..];
  }

  // ---------------------------------------------------------------- ordering keys

  /** `sprintf('%02d', n)`: at least two digits, zero-padded. */
  function Pad2(n: nat): (s: string)
    ensures AllDigits(s) && |s| >= 2
    ensures n < 100 ==> s == [Digit(n / 10), Digit(n % 10)]
    ensures DigitsValue(s) == n
  {
    NatToStringRoundTrip(n);
    if n < 10 then
      assert "0" + NatToString(n) == [Digit(0), Digit(n)];
      "0" + NatToString(n)
    else
      assert n >= 100 ==> |NatToString(n / 10)| >= 1;
      NatToString(n)
  }

  /** The ordering key: the clock reading, `_`, and the padded counter. */
  function Key(now: string, counter: nat): string {
    now + "_" + Pad2(counter)
  }

  /** The two static fields the generator keeps across calls in one process. */
  datatype Sequencer = Sequencer(last: Option<string>, counter: nat)

  const Fresh: Sequencer := Sequencer(None, 0)

  /** `getUniqueMigrationTimestamp` with the clock reading `now` (`date('Y_m_d_His')`). */
  function Step(s: Sequencer, now: string): (r: (string, Sequencer))
    ensures r.1.last == Some(now)
    ensures s.last != Some(now) ==> r.1.counter == 0
    ensures s.last == Some(now) ==> r.1.counter == s.counter + 1
    ensures r.0 == Key(now, r.1.counter)
  {
    var next := if s.last != Some(now) then Sequencer(Some(now), 0) else Sequencer(s.last, s.counter + 1);
    (Key(now, next.counter), next)
  }

  /** The key the sequencer handed out last. */
  function LastKey(s: Sequencer): string
    requires s.last.Some?
  {
    Key(s.last.value, s.counter)
  }

  lemma Pad2Ordered(n: nat, m: nat)
    requires n < m < 100
    ensures LexLess(Pad2(n), Pad2(m))
  {
    var p, q := Pad2(n), Pad2(m);
    assert DigitValue(p[0]) == n / 10 && DigitValue(q[0]) == m / 10;
    if p[0] == q[0] {
      assert p[1..] == [p[1]] && q[1..] == [q[1]];
      assert DigitValue(p[1]) == n % 10 && DigitValue(q[1]) == m % 10;
    }
  }

  /**
   * Keys handed out one after the other increase as strings when the clock has moved on
   * (readings of one fixed width) or when it has not and fewer than 100 keys have been
   * handed out for that reading.
   */
  lemma StepIncreases(s: Sequencer, now: string)
    requires s.last.Some? && |now| == |s.last.value|
    requires LexLess(s.last.value, now) || (now == s.last.value && s.counter < 99)
    ensures LexLess(LastKey(s), Step(s, now).0)
  {
    if LexLess(s.last.value, now) {
      NewReadingIncreases(s, now);
    } else {
      SameReadingIncreases(s, now);
    }
  }

  /** A later reading of the same width gives a larger key, whatever the counters. */
  lemma NewReadingIncreases(s: Sequencer, now: string)
    requires s.last.Some? && |now| == |s.last.value| && LexLess(s.last.value, now)
    ensures LexLess(LastKey(s), Step(s, now).0)
  {
    var prev := s.last.value;
    var key := Step(s, now).0;
    LexLessEqualLength(prev, now, "_" + Pad2(s.counter), "_" + key[|now| + 1..]);
    assert LastKey(s) == prev + ("_" + Pad2(s.counter));
    assert key == now + ("_" + key[|now| + 1..]);
  }

  /** The same reading with a counter below 99 gives a larger key. */
  lemma SameReadingIncreases(s: Sequencer, now: string)
    requires s.last == Some(now) && s.counter < 99
    ensures LexLess(LastKey(s), Step(s, now).0)
  {
    Pad2Ordered(s.counter, s.counter + 1);
    LexLessCommonPrefix(now + "_", Pad2(s.counter), Pad2(s.counter + 1));
  }

  /** The hundred-and-first key within one clock reading sorts before the hundredth. */
  lemma HundredthKeyOutOfOrder(now: string)
    ensures var s := Sequencer(Some(now), 99);
      LexLess(Step(s, now).0, LastKey(s))
  {
    var s := Sequencer(Some(now), 99);
    assert Pad2(100) == "100" by {
      assert NatToString(100) == NatToString(10) + [Digit(0)];
      assert NatToString(10) == NatToString(1) + [Digit(0)];
    }
    assert LexLess("100", "99");
    LexLessCommonPrefix(now + "_", "100", "99");
  }

  /** The generator's static fields as an object. */
  class MigrationClock {
    var lastTimestamp: Option<string>
    var migrationCounter: nat

    constructor ()
      ensures lastTimestamp == None && migrationCounter == 0
    {
      lastTimestamp := None;
      migrationCounter := 0;
    }

    method UniqueTimestamp(now: string) returns (key: string)
      modifies this
      ensures (key, Sequencer(lastTimestamp, migrationCounter))
           == Step(Sequencer(old(lastTimestamp), old(migrationCounter)), now)
    {
      if lastTimestamp != Some(now) {
        migrationCounter := 0;
        lastTimestamp := Some(now);
      } else {
        migrationCounter := migrationCounter + 1;
      }
      key := Key(now, migrationCounter);
    }
  }
}

=== FILE: model_fragments.dfy ===
/**
 * The two fragments the model stub receives: the `$fillable` declaration and the
 * relationship methods. The make-module command carries a character-for-character copy of
 * both compilers, so one definition serves the generator and the command.
 */
module ModelFragments {
  import opened Wrappers
  import opened Php
  import opened Attributes

  const FillablePrefix: string := "protected $fillable = ["
  const FillableSuffix: string := "];"

  /** A name as a single-quoted PHP string literal. */
  function Quote(name: string): string {
    "'" + name + "'"
  }

  /** The names of the column attributes, in declaration order. */
  function ColumnNames(attributes: seq<Attribute>): (r: seq<string>)
    ensures |r| == |Columns(attributes)|
    ensures forall i :: 0 <= i < |r| ==> r[i] == Columns(attributes)[i].name
  {
    var cols := Columns(attributes);
    seq(|cols|, i requires 0 <= i < |cols| => cols[i].name)
  }

  function QuoteAll(names: seq<string>): (r: seq<string>)
    ensures |r| == |names|
    ensures forall i :: 0 <= i < |r| ==> r[i] == Quote(names[i])
  {
    seq(|names|, i requires 0 <= i < |names| => Quote(names[i]))
  }

  /** The first character of a join is the first character of its first part. */
  lemma JoinHead(parts: seq<string>, sep: string)
    ensures |parts| > 0 && |parts[0]| > 0 ==> |Join(parts, sep)| > 0 && Join(parts, sep)[0] == parts[0][0]
  {
  }

  /**
   * `getFillableForModel`: the quoted column names joined by `, ` inside
   * `protected $fillable = [...];`, or the empty string when no attribute is a column (in
   * particular when the list is empty or holds relationship entries only).
   */
  function Fillable(attributes: seq<Attribute>): (r: string)
    ensures r == "" <==> Columns(attributes) == []
    ensures r != "" ==> StartsWith(r, FillablePrefix) && EndsWith(r, FillableSuffix)
  {
    var quoted := QuoteAll(ColumnNames(attributes));
    var list := Join(quoted, ", ");
    JoinHead(quoted, ", ");
    if list != "" && list != "0" then FillablePrefix + list + FillableSuffix else ""
  }

  // ---------------------------------------------------------------- reading the list back

  /** The position of the first `'` in `s`, or `|s|` when there is none. */
  function QuoteEnd(s: string): (k: nat)
    ensures k <= |s| && (k < |s| ==> s[k] == '\'')
    ensures forall j :: 0 <= j < k ==> s[j] != '\''
    decreases |s|
  {
    if |s| == 0 || s[0] == '\'' then 0 else 1 + QuoteEnd(s[1..])
  }

  /** Reads `'n1', 'n2', ...` back into the names between the quotes. */
  function ParseNames(s: string): Option<seq<string>>
    decreases |s|
  {
    if |s| == 0 || s[0] != '\'' then None
    else
      var k := QuoteEnd(s[1..]);
      if k == |s| - 1 then None
      else
        var name := s[1..k + 1];
        var rest := s[k + 2..];
        if rest == "" then Some([name])
        else if |rest| >= 2 && rest[..2] == ", " then
          match ParseNames(rest[2..])
          case Some(more) => Some([name] + more)
          case None => None
        else None
  }

  /** Reads a fillable declaration back into its names; the empty string lists none. */
  function ParseFillable(r: string): Option<seq<string>> {
    if r == "" then Some([])
    else if |r| >= |FillablePrefix| + |FillableSuffix| && StartsWith(r, FillablePrefix) && EndsWith(r, FillableSuffix) then
      ParseNames(r[|FillablePrefix|..|r| - |FillableSuffix|])
    else None
  }

  /** A name that can be read back unambiguously: it holds no single quote. */
  predicate Unquoted(name: string) {
    '\'' !in name
  }

  lemma QuoteEndOf(name: string, rest: string)
    requires Unquoted(name)
    ensures QuoteEnd(name + "'" + rest) == |name|
  {
    var s := name + "'" + rest;
    assert forall j :: 0 <= j < |name| ==> s[j] == name[j];
    assert s[|name|] == '\'';
  }

  lemma {:induction false} ParseQuotedNames(names: seq<string>)
    requires |names| > 0
    requires forall i :: 0 <= i < |names| ==> Unquoted(names[i])
    ensures ParseNames(Join(QuoteAll(names), ", ")) == Some(names)
    decreases |names|
  {
    var q := QuoteAll(names);
    var n := names[0];
    if |names| == 1 {
      assert Join(q, ", ") == Quote(n);
      ParseLast(n);
      assert names == [n];
    } else {
      var tail := Join(QuoteAll(names[1..]), ", ");
      assert q[1..] == QuoteAll(names[1..]);
      assert Join(q, ", ") == Quote(n) + ", " + tail;
      ParseQuotedNames(names[1..]);
      ParseNext(n, tail, names[1..]);
      assert [n] + names[1..] == names;
    }
  }

  /** The reader on a last quoted name. */
  lemma ParseLast(n: string)
    requires Unquoted(n)
    ensures ParseNames(Quote(n)) == Some([n])
  {
    var s := Quote(n);
    assert s[1..] == n + "'" + "";
    QuoteEndOf(n, "");
    assert s[1..|n| + 1] == n;
    assert s[|n| + 2..] == "";
  }

  /** The reader on a quoted name followed by `, ` and further names. */
  lemma ParseNext(n: string, tail: string, more: seq<string>)
    requires Unquoted(n) && ParseNames(tail) == Some(more)
    ensures ParseNames(Quote(n) + ", " + tail) == Some([n] + more)
  {
    var s := Quote(n) + ", " + tail;
    assert s[1..] == n + "'" + (", " + tail);
    QuoteEndOf(n, ", " + tail);
    assert s[1..|n| + 1] == n;
    var rest := s[|n| + 2..];
    assert rest == ", " + tail;
    assert rest[..2] == ", " && rest[2..] == tail;
  }

  /**
   * The fillable declaration lists exactly the column names, in declaration order: reading
   * it back yields them (and nothing for a list without columns).
   */
  lemma FillableRoundTrip(attributes: seq<Attribute>)
    requires forall i :: 0 <= i < |Columns(attributes)| ==> Unquoted(Columns(attributes)[i].name)
    ensures ParseFillable(Fillable(attributes)) == Some(ColumnNames(attributes))
  {
    var names := ColumnNames(attributes);
    if |names| > 0 {
      var list := Join(QuoteAll(names), ", ");
      var r := Fillable(attributes);
      JoinHead(QuoteAll(names), ", ");
      assert r == FillablePrefix + list + FillableSuffix;
      assert r[|FillablePrefix|..|r| - |FillableSuffix|] == list;
      ParseQuotedNames(names);
    }
  }

  // ---------------------------------------------------------------- relationship methods

  /** The class the relation points at: a model of the current module, always. */
  function TargetClass(inf: Inflector, moduleName: string, model: string): (r: string)
    ensures StartsWith(r, "Modules\\" + moduleName + "\\Models\\")
    ensures EndsWith(r, inf.studly(model))
  {
    "Modules\\" + moduleName + "\\Models\\" + inf.studly(model)
  }

  function DocBlock(name: string, component: string): string {
    "    /**\n     * Get the " + name + " associated with the " + component + ".\n     */\n"
  }

  /** The declaration line: the method is `camel(name)`, the return type the relation class. */
  function Signature(methodName: string, relationType: string): string {
    "    public function " + methodName + "(): \\Illuminate\\Database\\Eloquent\\Relations\\" + relationType + "\n"
  }

  /** The body: one call of the relation method on the target class. */
  function CallBody(relationType: string, target: string): string {
    "    {\n        return $this->" + relationType + "(" + target + "::class);\n    }\n\n"
  }

  /** The method generated for one relationship entry of `component`. */
  function MethodFor(inf: Inflector, moduleName: string, component: string, a: Attribute): string {
    var rel := RelationOf(a);
    DocBlock(a.name, component)
    + Signature(inf.camel(a.name), rel.relationType)
    + CallBody(rel.relationType, TargetClass(inf, moduleName, rel.model))
  }

  lemma ThreeParts(x: string, y: string, z: string)
    ensures StartsWith(x + y + z, x) && StartsWith((x + y + z)[|x|..], y) && EndsWith(x + y + z, z)
  {
    assert (x + y + z)[|x|..] == y + z;
  }

  /** The method body ends with the call of the relation method on the target class. */
  lemma CallBodyEnds(relationType: string, target: string)
    ensures EndsWith(CallBody(relationType, target), "return $this->" + relationType + "(" + target + "::class);\n    }\n\n")
  {
    var tail := "return $this->" + relationType + "(" + target + "::class);\n    }\n\n";
    assert CallBody(relationType, target) == "    {\n        " + tail;
  }

  /**
   * Every method opens with its doc block, then declares `camel(name)` returning the relation
   * class the entry names, and closes by calling the same relation method on a model of the
   * current module.
   */
  lemma MethodShape(inf: Inflector, moduleName: string, component: string, a: Attribute)
    ensures var rel := RelationOf(a);
      var m := MethodFor(inf, moduleName, component, a);
      var doc := DocBlock(a.name, component);
      StartsWith(m, doc)
      && StartsWith(m[|doc|..], Signature(inf.camel(a.name), rel.relationType))
      && EndsWith(m, "return $this->" + rel.relationType + "(" + TargetClass(inf, moduleName, rel.model) + "::class);\n    }\n\n")
  {
    var rel := RelationOf(a);
    var doc := DocBlock(a.name, component);
    var body := CallBody(rel.relationType, TargetClass(inf, moduleName, rel.model));
    ThreeParts(doc, Signature(inf.camel(a.name), rel.relationType), body);
    CallBodyEnds(rel.relationType, TargetClass(inf, moduleName, rel.model));
  }

  /** One method per relationship entry, in declaration order. */
  function MethodBlocks(inf: Inflector, moduleName: string, component: string, attributes: seq<Attribute>): (r: seq<string>)
    ensures |r| == |Relationships(attributes)|
    ensures forall i :: 0 <= i < |r| ==> r[i] == MethodFor(inf, moduleName, component, Relationships(attributes)[i])
  {
    var rels := Relationships(attributes);
    seq(|rels|, i requires 0 <= i < |rels| => MethodFor(inf, moduleName, component, rels[i]))
  }

  /** `implode('', parts)`. */
  function Concat(parts: seq<string>): string
    decreases |parts|
  {
    if |parts| == 0 then "" else parts[0] + Concat(parts[1..])
  }

  lemma {:induction false} ConcatAppend(a: seq<string>, b: seq<string>)
    ensures Concat(a + b) == Concat(a) + Concat(b)
    decreases |a|
  {
    if |a| == 0 {
      assert a + b == b;
    } else {
      assert (a + b)[1..] == a[1..] + b;
      ConcatAppend(a[1..], b);
    }
  }

  /** `getRelationshipsForModel` for component `component` of module `moduleName`. */
  function RelationshipMethods(inf: Inflector, moduleName: string, component: string, attributes: seq<Attribute>): string {
    Concat(MethodBlocks(inf, moduleName, component, attributes))
  }

  lemma BlocksAppend(inf: Inflector, moduleName: string, component: string, a: seq<Attribute>, b: seq<Attribute>)
    ensures MethodBlocks(inf, moduleName, component, a + b)
         == MethodBlocks(inf, moduleName, component, a) + MethodBlocks(inf, moduleName, component, b)
  {
    RelationshipsAppend(a, b);
    var l := MethodBlocks(inf, moduleName, component, a + b);
    var x, y := MethodBlocks(inf, moduleName, component, a), MethodBlocks(inf, moduleName, component, b);
    var ra, rb := Relationships(a), Relationships(b);
    assert |l| == |x + y|;
    forall i | 0 <= i < |l|
      ensures l[i] == (x + y)[i]
    {
      if i < |x| {
        assert Relationships(a + b)[i] == ra[i];
      } else {
        assert Relationships(a + b)[i] == rb[i - |x|];
      }
    }
  }

  /** The methods of a split list are those of the first part followed by those of the second. */
  lemma RelationshipMethodsAppend(inf: Inflector, moduleName: string, component: string, a: seq<Attribute>, b: seq<Attribute>)
    ensures RelationshipMethods(inf, moduleName, component, a + b)
         == RelationshipMethods(inf, moduleName, component, a) + RelationshipMethods(inf, moduleName, component, b)
  {
    BlocksAppend(inf, moduleName, component, a, b);
    ConcatAppend(MethodBlocks(inf, moduleName, component, a), MethodBlocks(inf, moduleName, component, b));
  }

  /** A relationship entry yields its method, a column nothing, and an empty list nothing. */
  lemma RelationshipMethodsOne(inf: Inflector, moduleName: string, component: string, a: Attribute)
    ensures RelationshipMethods(inf, moduleName, component, []) == ""
    ensures IsRelationship(a) ==>
      RelationshipMethods(inf, moduleName, component, [a]) == MethodFor(inf, moduleName, component, a)
    ensures !IsRelationship(a) ==> RelationshipMethods(inf, moduleName, component, [a]) == ""
  {
    assert [a][1..] == [];
    var blocks := MethodBlocks(inf, moduleName, component, [a]);
    if IsRelationship(a) {
      assert Relationships([a]) == [a];
      assert Concat(blocks) == blocks[0] + Concat([]);
    } else {
      assert Relationships([a]) == [];
    }
  }

  /**
   * A relationship entry without its `relationship` sub-record still yields one method: its
   * return type and relation call are empty, and it targets the studly form of the empty model
   * name in the current module.
   */
  lemma MissingRelationship(inf: Inflector, moduleName: string, component: string, a: Attribute)
    requires IsRelationship(a) && a.relationship.None?
    ensures var m := RelationshipMethods(inf, moduleName, component, [a]);
      StartsWith(m, DocBlock(a.name, component))
      && StartsWith(m[|DocBlock(a.name, component)|..], Signature(inf.camel(a.name), ""))
      && EndsWith(m, "return $this->(" + TargetClass(inf, moduleName, "") + "::class);\n    }\n\n")
  {
    RelationshipMethodsOne(inf, moduleName, component, a);
    MethodShape(inf, moduleName, component, a);
  }
}

=== FILE: orchestration.dfy ===
/**
 * What the make-module command and the module generator decide before any file is written:
 * which mode a run takes, where the JSON configuration is looked up, and which generators run
 * under which names. A run is described by the list of generator invocations it makes; the
 * generators themselves and the file system stay outside, the latter as an existence oracle.
 */
module Orchestration {
  import opened Wrappers
  import opened Php
  import opened Attributes
  import Factory

  // ---------------------------------------------------------------- generator invocations

  datatype Generator =
    | ModelGen | ControllerGen | ServiceGen | RepositoryGen | RequestGen | ProviderGen
    | RouteGen | MigrationGen | SeederGen | FactoryGen | TestGen

  /** One generator invoked for one class (or file) name. */
  datatype Step = Step(generator: Generator, name: string)

  /** The naming rule of a component whose model is `model`: controllers, services, repositories,
      store requests and tests carry a suffix, routes are named after the controller, and the
      model, migration, seeder and factory take the model name itself. */
  function NameFor(g: Generator, model: string): string {
    match g
    case ControllerGen => model + "Controller"
    case RouteGen => model + "Controller"
    case ServiceGen => model + "Service"
    case RepositoryGen => model + "Repository"
    case RequestGen => model + "StoreRequest"
    case TestGen => model + "Test"
    case _ => model
  }

  /** The generators run for each component of a dynamic module, in the order they are run. */
  const ComponentOrder: seq<Generator> :=
    [ModelGen, ControllerGen, ServiceGen, RepositoryGen, RequestGen, MigrationGen, SeederGen, FactoryGen, TestGen, RouteGen]

  function StepsFor(gs: seq<Generator>, model: string): (r: seq<Step>)
    ensures |r| == |gs|
    ensures forall k :: 0 <= k < |gs| ==> r[k].generator == gs[k]
    ensures forall k :: 0 <= k < |gs| ==> r[k].name == NameFor(gs[k], model)
  {
    seq(|gs|, k requires 0 <= k < |gs| => Step(gs[k], NameFor(gs[k], model)))
  }

  /** The invocations one component contributes. */
  function ComponentSteps(model: string): seq<Step> {
    StepsFor(ComponentOrder, model)
  }

  /** The names the invocations of generator `g` receive, in order. */
  function NamesOf(g: Generator, steps: seq<Step>): seq<string>
    decreases |steps|
  {
    if |steps| == 0 then []
    else (if steps[0].generator == g then [steps[0].name] else []) + NamesOf(g, steps[1..])
  }

  lemma {:induction false} NamesOfAppend(g: Generator, a: seq<Step>, b: seq<Step>)
    ensures NamesOf(g, a + b) == NamesOf(g, a) + NamesOf(g, b)
    decreases |a|
  {
    if |a| == 0 {
      assert a + b == b;
    } else {
      assert (a + b)[0] == a[0] && (a + b)[1..] == a[1..] + b;
      NamesOfAppend(g, a[1..], b);
    }
  }

  predicate Distinct(gs: seq<Generator>) {
    forall i, j :: 0 <= i < j < |gs| ==> gs[i] != gs[j]
  }

  /** In a list of distinct generators each one present is invoked exactly once, under its
      naming rule, and every other one not at all. */
  lemma {:induction false} StepsForNames(g: Generator, gs: seq<Generator>, model: string)
    requires Distinct(gs)
    ensures NamesOf(g, StepsFor(gs, model)) == if g in gs then [NameFor(g, model)] else []
    decreases |gs|
  {
    if |gs| > 0 {
      var r := StepsFor(gs, model);
      assert r[1..] == StepsFor(gs[1..], model);
      assert Distinct(gs[1..]) by {
        forall i, j | 0 <= i < j < |gs[1..]|
          ensures gs[1..][i] != gs[1..][j]
        {
          assert gs[1..][i] == gs[i + 1] && gs[1..][j] == gs[j + 1];
        }
      }
      StepsForNames(g, gs[1..], model);
      assert g in gs <==> g == gs[0] || g in gs[1..];
      if g == gs[0] {
        assert g !in gs[1..] by {
          forall j | 0 <= j < |gs[1..]|
            ensures gs[1..][j] != g
          {
            assert gs[1..][j] == gs[j + 1];
          }
        }
      }
    }
  }

  /** A list in which every generator's position is given by `pos` holds no generator twice. */
  lemma DistinctByPosition(gs: seq<Generator>, pos: Generator -> int)
    requires forall i :: 0 <= i < |gs| ==> pos(gs[i]) == i
    ensures Distinct(gs)
  {
  }

  function ComponentPosition(g: Generator): int {
    match g
    case ModelGen => 0 case ControllerGen => 1 case ServiceGen => 2 case RepositoryGen => 3 case RequestGen => 4
    case MigrationGen => 5 case SeederGen => 6 case FactoryGen => 7 case TestGen => 8 case RouteGen => 9
    case ProviderGen => 10
  }

  function CleanPosition(g: Generator): int {
    match g
    case ModelGen => 0 case ControllerGen => 1 case ServiceGen => 2 case RepositoryGen => 3 case RequestGen => 4
    case ProviderGen => 5 case RouteGen => 6 case MigrationGen => 7 case SeederGen => 8 case FactoryGen => 9
    case TestGen => 10
  }

  lemma OrdersDistinct()
    ensures Distinct(ComponentOrder) && Distinct(CleanOrder)
  {
    DistinctByPosition(ComponentOrder, ComponentPosition);
    DistinctByPosition(CleanOrder, CleanPosition);
  }

  lemma OrdersCover(g: Generator)
    ensures g != ProviderGen ==> g in ComponentOrder
    ensures ProviderGen !in ComponentOrder
    ensures g in CleanOrder
  {
  }

  /**
   * One component gets every generator but the provider exactly once, each under its naming
   * rule: `{Model}`, `{Model}Controller`, `{Model}Service`, `{Model}Repository`,
   * `{Model}StoreRequest`, `{Model}Test` and routes for `{Model}Controller`.
   */
  lemma ComponentNames(g: Generator, model: string)
    ensures NamesOf(g, ComponentSteps(model)) == if g == ProviderGen then [] else [NameFor(g, model)]
  {
    OrdersDistinct();
    OrdersCover(g);
    StepsForNames(g, ComponentOrder, model);
  }

  /** Every component's invocations, component by component, each under `Str::studly` of the
      component's name. */
  function AllComponentSteps(inf: Inflector, names: seq<string>): (r: seq<Step>)
    ensures |r| == 10 * |names|
    ensures forall i :: 0 <= i < |names| ==> r[10 * i..10 * i + 10] == ComponentSteps(inf.studly(names[i]))
    decreases |names|
  {
    if |names| == 0 then []
    else
      var head := ComponentSteps(inf.studly(names[0]));
      var rest := AllComponentSteps(inf, names[1..]);
      assert forall i :: 1 <= i < |names| ==> names[i] == names[1..][i - 1];
      assert forall j :: 0 <= j < |rest| / 10 ==> (head + rest)[10 * (j + 1)..10 * (j + 1) + 10] == rest[10 * j..10 * j + 10];
      head + rest
  }

  /** A dynamic module: the provider once, for the module, then every component. */
  function DynamicSteps(inf: Inflector, moduleName: string, names: seq<string>): seq<Step> {
    [Step(ProviderGen, moduleName)] + AllComponentSteps(inf, names)
  }

  /** The names a generator receives across the components, component by component. */
  function ComponentsNamed(g: Generator, inf: Inflector, names: seq<string>): (r: seq<string>)
    ensures |r| == |names| && forall i :: 0 <= i < |names| ==> r[i] == NameFor(g, inf.studly(names[i]))
    decreases |names|
  {
    if |names| == 0 then []
    else [NameFor(g, inf.studly(names[0]))] + ComponentsNamed(g, inf, names[1..])
  }

  lemma {:induction false} AllComponentNames(inf: Inflector, names: seq<string>, g: Generator)
    ensures NamesOf(g, AllComponentSteps(inf, names)) == if g == ProviderGen then [] else ComponentsNamed(g, inf, names)
    decreases |names|
  {
    if |names| > 0 {
      var head := ComponentSteps(inf.studly(names[0]));
      var rest := AllComponentSteps(inf, names[1..]);
      assert AllComponentSteps(inf, names) == head + rest;
      NamesOfAppend(g, head, rest);
      ComponentNames(g, inf.studly(names[0]));
      AllComponentNames(inf, names[1..], g);
    }
  }

  /**
   * Across a dynamic module every generator but the provider is invoked once per component, in
   * component order, under that component's naming rule; the provider is invoked once, for the
   * module.
   */
  lemma DynamicNames(inf: Inflector, moduleName: string, names: seq<string>, g: Generator)
    ensures g != ProviderGen ==>
      var ns := NamesOf(g, DynamicSteps(inf, moduleName, names));
      |ns| == |names| && forall i :: 0 <= i < |names| ==> ns[i] == NameFor(g, inf.studly(names[i]))
    ensures g == ProviderGen ==> NamesOf(g, DynamicSteps(inf, moduleName, names)) == [moduleName]
  {
    var p := [Step(ProviderGen, moduleName)];
    NamesOfAppend(g, p, AllComponentSteps(inf, names));
    assert NamesOf(g, p) == (if g == ProviderGen then [moduleName] else []) by {
      assert p[1..] == [];
    }
    AllComponentNames(inf, names, g);
  }

  /** The generators a clean module runs, in order: the provider and the routes come between
      the request and the migration. */
  const CleanOrder: seq<Generator> :=
    [ModelGen, ControllerGen, ServiceGen, RepositoryGen, RequestGen, ProviderGen, RouteGen, MigrationGen, SeederGen,
     FactoryGen, TestGen]

  /** A clean module: one model named after the module, the provider named after it too. */
  function CleanSteps(model: string): seq<Step> {
    StepsFor(CleanOrder, model)
  }

  /** A clean module invokes every generator exactly once under the module's naming rule: the
      same invocations as a dynamic module holding one component named after the module, only
      in another order. */
  lemma CleanIsOneComponent(g: Generator, model: string)
    ensures NamesOf(g, CleanSteps(model)) == [NameFor(g, model)]
    ensures NamesOf(g, CleanSteps(model)) == NamesOf(g, [Step(ProviderGen, model)] + ComponentSteps(model))
  {
    OrdersDistinct();
    OrdersCover(g);
    StepsForNames(g, CleanOrder, model);
    var p := [Step(ProviderGen, model)];
    NamesOfAppend(g, p, ComponentSteps(model));
    assert p[1..] == [];
    ComponentNames(g, model);
  }

  // ---------------------------------------------------------------- individual components

  /** The six component options, as the console hands them over (`VNull` when not given). */
  datatype IndividualOptions = IndividualOptions(
    model: Value, controller: Value, request: Value, service: Value, repository: Value, migration: Value)

  /** The options in the order both individual-mode procedures consult them. */
  function Requested(o: IndividualOptions): seq<(Generator, Value)> {
    [(ModelGen, o.model), (ControllerGen, o.controller), (RequestGen, o.request),
     (ServiceGen, o.service), (RepositoryGen, o.repository), (MigrationGen, o.migration)]
  }

  /** The condition under which the command takes the individual-components path. */
  predicate AnyRequested(o: IndividualOptions) {
    Truthy(o.model) || Truthy(o.controller) || Truthy(o.request) || Truthy(o.service)
    || Truthy(o.repository) || Truthy(o.migration)
  }

  /** The name both procedures give a component option: `Str::studly` of its string form. */
  function OptionName(inf: Inflector, v: Value): string {
    inf.studly(Interpolate(v))
  }

  /** The two tests an option can be put to: the command runs a generator when the raw option is
      truthy, the module generator when the studly name it yields is. */
  datatype Gate = OptionGiven | NameGiven

  predicate Runs(inf: Inflector, gate: Gate, v: Value) {
    match gate
    case OptionGiven => Truthy(v)
    case NameGiven => Truthy(VStr(OptionName(inf, v)))
  }

  /** The options that pass the gate, each invoking its generator under the option's name. */
  function Gated(inf: Inflector, gate: Gate, opts: seq<(Generator, Value)>): (r: seq<Step>)
    ensures |r| <= |opts|
    ensures forall s :: s in r <==>
      exists k :: 0 <= k < |opts| && Runs(inf, gate, opts[k].1) && s == Step(opts[k].0, OptionName(inf, opts[k].1))
    decreases |opts|
  {
    if |opts| == 0 then []
    else
      var rest := Gated(inf, gate, opts[1..]);
      assert forall k :: 1 <= k < |opts| ==> opts[k] == opts[1..][k - 1];
      var head := if Runs(inf, gate, opts[0].1) then [Step(opts[0].0, OptionName(inf, opts[0].1))] else [];
      assert forall s :: s in head + rest <==> s in head || s in rest;
      head + rest
  }

  /** `MakeModuleCommand::createIndividualComponents`. */
  function CommandIndividual(inf: Inflector, o: IndividualOptions): seq<Step> {
    Gated(inf, OptionGiven, Requested(o))
  }

  /** `ModuleGenerator::createIndividualComponents`. */
  function GeneratorIndividual(inf: Inflector, o: IndividualOptions): seq<Step> {
    Gated(inf, NameGiven, Requested(o))
  }

  lemma {:induction false} GatedAgree(inf: Inflector, opts: seq<(Generator, Value)>)
    requires forall k :: 0 <= k < |opts| ==> (Runs(inf, OptionGiven, opts[k].1) <==> Runs(inf, NameGiven, opts[k].1))
    ensures Gated(inf, OptionGiven, opts) == Gated(inf, NameGiven, opts)
    decreases |opts|
  {
    if |opts| > 0 {
      assert forall k :: 1 <= k < |opts| ==> opts[1..][k - 1] == opts[k];
      GatedAgree(inf, opts[1..]);
    }
  }

  /** The two gates differ only on options whose truthiness studly-casing changes; on all
      other inputs the command and the generator run the same generators under the same names. */
  lemma GatesAgree(inf: Inflector, o: IndividualOptions)
    requires forall k :: 0 <= k < |Requested(o)| ==>
      (Truthy(Requested(o)[k].1) <==> Truthy(VStr(OptionName(inf, Requested(o)[k].1))))
    ensures CommandIndividual(inf, o) == GeneratorIndividual(inf, o)
  {
    GatedAgree(inf, Requested(o));
  }

  /** The generator never runs a component whose name came out empty. */
  lemma GeneratorSkipsEmptyNames(inf: Inflector, o: IndividualOptions)
    ensures forall s :: s in GeneratorIndividual(inf, o) ==> s.name != "" && s.name != "0"
  {
    var opts := Requested(o);
    forall s | s in GeneratorIndividual(inf, o)
      ensures s.name != "" && s.name != "0"
    {
      var k :| 0 <= k < |opts| && Runs(inf, NameGiven, opts[k].1) && s == Step(opts[k].0, OptionName(inf, opts[k].1));
    }
  }

  // ---------------------------------------------------------------- configuration lookup

  function CommandConfigCandidates(modulesRoot: string, moduleName: string, configPath: string): seq<string> {
    [modulesRoot + "/" + moduleName + "/config/" + configPath,
     modulesRoot + "/module-maker-config/" + configPath,
     modulesRoot + "/../config/" + configPath]
  }

  /** `MakeModuleCommand::resolveConfigPath`: the module's config folder, then the package's,
      then the application's (reached through the modules root), else the path as given. */
  function CommandConfigPath(present: string -> bool, modulesRoot: string, moduleName: string, configPath: string): (r: string)
    ensures r == configPath || present(r)
  {
    var moduleConfig := modulesRoot + "/" + moduleName + "/config/" + configPath;
    var packageConfig := modulesRoot + "/module-maker-config/" + configPath;
    var rootConfig := modulesRoot + "/../config/" + configPath;
    if present(moduleConfig) then moduleConfig
    else if present(packageConfig) then packageConfig
    else if present(rootConfig) then rootConfig
    else configPath
  }

  function GeneratorConfigCandidates(modulesRoot: string, appConfig: string, moduleName: string, configPath: string): seq<string> {
    [modulesRoot + "/" + moduleName + "/config/" + configPath,
     modulesRoot + "/module-maker-config/" + configPath,
     appConfig + "/" + configPath]
  }

  /** `ModuleGenerator::resolveConfigPath`: as the command, except that the application's
      folder is `base_path('config')`, given here as `appConfig`. */
  function GeneratorConfigPath(present: string -> bool, modulesRoot: string, appConfig: string, moduleName: string,
                               configPath: string): (r: string)
    ensures r == configPath || present(r)
  {
    var moduleConfig := modulesRoot + "/" + moduleName + "/config/" + configPath;
    var packageConfig := modulesRoot + "/module-maker-config/" + configPath;
    var rootConfig := appConfig + "/" + configPath;
    if present(moduleConfig) then moduleConfig
    else if present(packageConfig) then packageConfig
    else if present(rootConfig) then rootConfig
    else configPath
  }

  lemma FirstOfThree(present: string -> bool, a: string, b: string, c: string)
    ensures Factory.FirstExisting(present, [a, b, c])
         == if present(a) then Some(a) else if present(b) then Some(b) else if present(c) then Some(c) else None
  {
    assert [c][1..] == [];
    assert Factory.FirstExisting(present, [c]) == if present(c) then Some(c) else None;
    assert [b, c][1..] == [c];
    assert Factory.FirstExisting(present, [b, c]) == if present(b) then Some(b) else Factory.FirstExisting(present, [c]);
    assert [a, b, c][1..] == [b, c];
    assert Factory.FirstExisting(present, [a, b, c]) == if present(a) then Some(a) else Factory.FirstExisting(present, [b, c]);
  }

  /**
   * Both lookups return the first existing candidate in priority order, and the path as given
   * exactly when no candidate exists.
   */
  lemma ConfigPathIsFirstExisting(present: string -> bool, modulesRoot: string, appConfig: string,
                                  moduleName: string, configPath: string)
    ensures CommandConfigPath(present, modulesRoot, moduleName, configPath)
         == Factory.FirstExisting(present, CommandConfigCandidates(modulesRoot, moduleName, configPath)).GetOr(configPath)
    ensures GeneratorConfigPath(present, modulesRoot, appConfig, moduleName, configPath)
         == Factory.FirstExisting(present, GeneratorConfigCandidates(modulesRoot, appConfig, moduleName, configPath)).GetOr(configPath)
  {
    var c := CommandConfigCandidates(modulesRoot, moduleName, configPath);
    FirstOfThree(present, c[0], c[1], c[2]);
    var g := GeneratorConfigCandidates(modulesRoot, appConfig, moduleName, configPath);
    FirstOfThree(present, g[0], g[1], g[2]);
  }

  // ---------------------------------------------------------------- dynamic modules

  /** One entry of the configuration's `components` list, reduced to what orchestration reads. */
  datatype ComponentEntry = ComponentEntry(name: string, attributes: seq<Attribute>)

  /**
   * The decoded configuration file. `keys` holds every top-level key the array has, whatever
   * its value, null included. `moduleName` is the value read through `module_name ?? ...`
   * (`VNull` when the key is absent or null), and `components` the value read through
   * `components ?? []` (None when absent or null).
   */
  datatype ModuleConfig = ModuleConfig(keys: set<string>, moduleName: Value, components: Option<seq<ComponentEntry>>)

  /** PHP's `if ($config)` on the optional configuration array: null and `[]` are false, and an
      array with any key at all is true, even when every value is null. */
  predicate ConfigTruthy(config: Option<ModuleConfig>) {
    config.Some? && config.value.keys != {}
  }

  function EntryNames(cs: seq<ComponentEntry>): (r: seq<string>)
    ensures |r| == |cs| && forall i :: 0 <= i < |cs| ==> r[i] == cs[i].name
  {
    seq(|cs|, i requires 0 <= i < |cs| => cs[i].name)
  }

  function ConfigComponents(config: ModuleConfig): seq<string> {
    EntryNames(config.components.GetOr([]))
  }

  const NoConfigError: string := "No se proporcionó configuración para el módulo dinámico."

  /** `ModuleGenerator::createDynamicModule` for a generator built for `moduleName` (already
      studly-cased by its constructor): nothing but an error without a configuration. */
  function GeneratorDynamic(inf: Inflector, moduleName: string, config: Option<ModuleConfig>): (r: Result<seq<Step>, string>)
    ensures r.Failure? <==> !ConfigTruthy(config)
    ensures r.Failure? ==> r.error == NoConfigError
  {
    if !ConfigTruthy(config) then Failure(NoConfigError)
    else Success(DynamicSteps(inf, moduleName, ConfigComponents(config.value)))
  }

  /** A configuration whose only key is a null `module_name` is not empty: the generator goes
      on and runs the provider for the module, with no components. */
  lemma NullModuleNameStillRuns(inf: Inflector, moduleName: string)
    ensures var r := GeneratorDynamic(inf, moduleName, Some(ModuleConfig({"module_name"}, VNull, None)));
      r.Success? && r.value == [Step(ProviderGen, moduleName)]
      && r != GeneratorDynamic(inf, moduleName, None)
  {
    var c := ModuleConfig({"module_name"}, VNull, None);
    assert "module_name" in c.keys;
    assert ConfigComponents(c) == [];
    assert AllComponentSteps(inf, []) == [];
  }

  /** Everything the command reads from outside: the inflector, the modules root, which paths
      exist, what a file holds, and `json_decode` with its error message. */
  datatype Env = Env(
    inf: Inflector,
    modulesRoot: string,
    present: string -> bool,
    contents: string -> string,
    decode: string -> Result<ModuleConfig, string>)

  /** `MakeModuleCommand::createDynamicModule`: the module is named by the configuration's
      `module_name` when it has one, by the command's argument otherwise. */
  function CommandDynamic(env: Env, moduleName: string, configPath: string): (r: Result<seq<Step>, string>)
    ensures !env.present(CommandConfigPath(env.present, env.modulesRoot, moduleName, configPath)) ==>
      r == Failure("El archivo de configuración '" + configPath + "' no existe.")
    ensures var resolved := CommandConfigPath(env.present, env.modulesRoot, moduleName, configPath);
      env.present(resolved) && env.decode(env.contents(resolved)).Failure? ==>
        r == Failure("Error al parsear el archivo JSON: " + env.decode(env.contents(resolved)).error)
  {
    var resolved := CommandConfigPath(env.present, env.modulesRoot, moduleName, configPath);
    if !env.present(resolved) then Failure("El archivo de configuración '" + configPath + "' no existe.")
    else
      match env.decode(env.contents(resolved))
      case Failure(message) => Failure("Error al parsear el archivo JSON: " + message)
      case Success(config) =>
        var name := env.inf.studly(if config.moduleName == VNull then moduleName else Interpolate(config.moduleName));
        Success(DynamicSteps(env.inf, name, ConfigComponents(config)))
  }

  /**
   * The command names the module after the configuration's `module_name` and runs even for a
   * configuration without components; the generator keeps its own module name and needs a
   * non-empty configuration.
   */
  lemma DynamicModuleNames(env: Env, moduleName: string, configPath: string, config: ModuleConfig)
    requires env.present(CommandConfigPath(env.present, env.modulesRoot, moduleName, configPath))
    requires env.decode(env.contents(CommandConfigPath(env.present, env.modulesRoot, moduleName, configPath))) == Success(config)
    ensures var r := CommandDynamic(env, moduleName, configPath);
      r.Success? && NamesOf(ProviderGen, r.value)
        == [env.inf.studly(if config.moduleName == VNull then moduleName else Interpolate(config.moduleName))]
    ensures var g := GeneratorDynamic(env.inf, moduleName, Some(config));
      g.Success? ==> NamesOf(ProviderGen, g.value) == [moduleName]
  {
    var name := env.inf.studly(if config.moduleName == VNull then moduleName else Interpolate(config.moduleName));
    DynamicNames(env.inf, name, ConfigComponents(config), ProviderGen);
    DynamicNames(env.inf, moduleName, ConfigComponents(config), ProviderGen);
  }

  // ---------------------------------------------------------------- the command's dispatch

  const CommandSuccess: int := 0
  const CommandFailure: int := 1

  /** What a run of the command leaves behind: its exit code, the generators it ran, and the
      error it reported, if any. */
  datatype Report = Report(exitCode: int, steps: seq<Step>, error: Option<string>)

  function ModulePath(env: Env, moduleName: string): string {
    env.modulesRoot + "/" + moduleName
  }

  /** `MakeModuleCommand::handle` for the argument `name`, the component options and the
      `--config` option. */
  function Handle(env: Env, name: string, o: IndividualOptions, config: Value): (r: Report)
    ensures r.exitCode == CommandSuccess || r.exitCode == CommandFailure
    ensures r.exitCode == CommandFailure ==> r.steps == [] && r.error.Some?
  {
    var moduleName := env.inf.studly(name);
    var path := ModulePath(env, moduleName);
    if AnyRequested(o) then
      if !env.present(path) then
        Report(CommandFailure, [], Some("El módulo '" + moduleName + "' no existe. No se puede crear un componente en él."))
      else Report(CommandSuccess, CommandIndividual(env.inf, o), None)
    else if env.present(path) then
      Report(CommandFailure, [], Some("El módulo '" + moduleName + "' ya existe. Usa las opciones para añadir componentes."))
    else if Truthy(config) then
      match CommandDynamic(env, moduleName, Interpolate(config))
      case Success(steps) => Report(CommandSuccess, steps, None)
      case Failure(message) => Report(CommandSuccess, [], Some(message))
    else Report(CommandSuccess, CleanSteps(env.inf.studly(moduleName)), None)
  }

  /** The individual-components generators: the only ones a run on an existing module may use. */
  predicate IsComponentGenerator(g: Generator) {
    g in {ModelGen, ControllerGen, RequestGen, ServiceGen, RepositoryGen, MigrationGen}
  }

  /** The command fails exactly when it is asked for components of a missing module or for a
      new module that already exists. */
  lemma HandleFails(env: Env, name: string, o: IndividualOptions, config: Value)
    ensures var r := Handle(env, name, o, config);
      (r.exitCode == CommandFailure <==> (AnyRequested(o) != env.present(ModulePath(env, env.inf.studly(name)))))
  {
  }

  /** The individual-components generators the command runs for the given options: exactly
      the requested ones, each under the studly name of its option, and at least one. */
  lemma IndividualRunsRequested(inf: Inflector, o: IndividualOptions)
    requires AnyRequested(o)
    ensures var steps := CommandIndividual(inf, o);
      (forall s :: s in steps ==> IsComponentGenerator(s.generator))
      && (forall k :: 0 <= k < |Requested(o)| && Truthy(Requested(o)[k].1) ==>
            Step(Requested(o)[k].0, OptionName(inf, Requested(o)[k].1)) in steps)
      && (forall s :: s in steps ==>
            exists k :: 0 <= k < |Requested(o)| && Truthy(Requested(o)[k].1) && s.generator == Requested(o)[k].0)
      && |steps| > 0
  {
    IndividualOnlyRequested(inf, o);
    IndividualAllRequested(inf, o);
    IndividualSomething(inf, o);
  }

  lemma IndividualOnlyRequested(inf: Inflector, o: IndividualOptions)
    ensures forall s :: s in CommandIndividual(inf, o) ==>
      IsComponentGenerator(s.generator)
      && exists k :: 0 <= k < |Requested(o)| && Truthy(Requested(o)[k].1) && s.generator == Requested(o)[k].0
  {
    var opts := Requested(o);
    forall s | s in CommandIndividual(inf, o)
      ensures IsComponentGenerator(s.generator)
      ensures exists k :: 0 <= k < |opts| && Truthy(opts[k].1) && s.generator == opts[k].0
    {
      var j :| 0 <= j < |opts| && Runs(inf, OptionGiven, opts[j].1) && s == Step(opts[j].0, OptionName(inf, opts[j].1));
      assert Truthy(opts[j].1);
    }
  }

  lemma IndividualAllRequested(inf: Inflector, o: IndividualOptions)
    ensures forall k :: 0 <= k < |Requested(o)| && Truthy(Requested(o)[k].1) ==>
      Step(Requested(o)[k].0, OptionName(inf, Requested(o)[k].1)) in CommandIndividual(inf, o)
  {
    var opts := Requested(o);
    forall k | 0 <= k < |opts| && Truthy(opts[k].1)
      ensures Step(opts[k].0, OptionName(inf, opts[k].1)) in CommandIndividual(inf, o)
    {
      assert Runs(inf, OptionGiven, opts[k].1);
    }
  }

  lemma IndividualSomething(inf: Inflector, o: IndividualOptions)
    requires AnyRequested(o)
    ensures |CommandIndividual(inf, o)| > 0
  {
    var opts := Requested(o);
    IndividualAllRequested(inf, o);
    if Truthy(o.model) { assert Truthy(opts[0].1); }
    else if Truthy(o.controller) { assert Truthy(opts[1].1); }
    else if Truthy(o.request) { assert Truthy(opts[2].1); }
    else if Truthy(o.service) { assert Truthy(opts[3].1); }
    else if Truthy(o.repository) { assert Truthy(opts[4].1); }
    else { assert Truthy(opts[5].1); }
  }

  /**
   * Asked for components of an existing module the command runs exactly the requested ones;
   * and whatever the options, a run against an existing module never regenerates its provider,
   * routes or other module-wide files.
   */
  lemma HandleExistingModule(env: Env, name: string, o: IndividualOptions, config: Value)
    requires env.present(ModulePath(env, env.inf.studly(name)))
    ensures var r := Handle(env, name, o, config);
      (AnyRequested(o) ==> r.exitCode == CommandSuccess && r.steps == CommandIndividual(env.inf, o))
      && forall s :: s in r.steps ==> IsComponentGenerator(s.generator)
  {
    if AnyRequested(o) {
      IndividualRunsRequested(env.inf, o);
    }
  }

  /** Without component options and without the module: the clean layout, or the dynamic one
      with `--config`; a missing or unreadable configuration is reported, yet the command still
      exits successfully. */
  lemma HandleNewModule(env: Env, name: string, o: IndividualOptions, config: Value)
    requires !AnyRequested(o) && !env.present(ModulePath(env, env.inf.studly(name)))
    ensures var r := Handle(env, name, o, config);
      r.exitCode == CommandSuccess
      && (!Truthy(config) ==> r.steps == CleanSteps(env.inf.studly(env.inf.studly(name))))
      && (Truthy(config) ==>
            match CommandDynamic(env, env.inf.studly(name), Interpolate(config))
            case Success(steps) => r.steps == steps && r.error.None?
            case Failure(message) => r.steps == [] && r.error == Some(message))
  {
  }
}

=== FILE: php.dfy ===
/**
 * The slice of PHP the generators lean on: the loosely typed values an attribute record
 * holds, truthiness, string interpolation, and the string built-ins the generators call.
 * Laravel's inflection helpers are not interpreted: they arrive as an `Inflector` value.
 */
module Php {
  import opened Wrappers

  /** A value read out of a decoded JSON attribute record. `VNull` also stands for a missing
      key: every optional read the generators make goes through `??`, which treats the two alike. */
  datatype Value = VNull | VBool(b: bool) | VInt(i: int) | VStr(s: string) | VList(items: seq<Value>)

  /** PHP's conversion to boolean, as applied by `if ($x)`: 0, "", "0", null and [] are false. */
  predicate Truthy(v: Value) {
    match v
    case VNull => false
    case VBool(b) => b
    case VInt(i) => i != 0
    case VStr(s) => s != "" && s != "0"
    case VList(items) => |items| > 0
  }

  /** PHP's conversion to string, as applied by `"{$x}"`; a list converts to `Array`. */
  function Interpolate(v: Value): string {
    match v
    case VNull => ""
    case VBool(b) => if b then "1" else ""
    case VInt(i) => IntToString(i)
    case VStr(s) => s
    case VList(_) => "Array"
  }

  /** Laravel's `Str` inflection helpers, left uninterpreted. */
  datatype Inflector = Inflector(
    studly: string -> string,
    camel: string -> string,
    snake: string -> string,
    plural: string -> string,
    singular: string -> string)

  // ---------------------------------------------------------------- decimal numbers

  predicate IsDigit(c: char) {
    '0' <= c <= '9'
  }

  predicate AllDigits(s: string) {
    forall i :: 0 <= i < |s| ==> IsDigit(s[i])
  }

  function DigitValue(c: char): nat
    requires IsDigit(c)
  {
    c as int - '0' as int
  }

  function Digit(d: nat): (c: char)
    requires d < 10
    ensures IsDigit(c) && DigitValue(c) == d
  {
    "0123456789"[d]
  }

  /** Decimal rendering of a natural number, without leading zeros (PHP's `(string)$n`). */
  function NatToString(n: nat): (s: string)
    ensures |s| > 0 && AllDigits(s)
    ensures s[0] == '0' ==> n == 0
    decreases n
  {
    if n < 10 then [Digit(n)] else NatToString(n / 10) + [Digit(n % 10)]
  }

  /** The number a string of decimal digits denotes. */
  function DigitsValue(s: string): nat
    requires AllDigits(s)
    decreases |s|
  {
    if |s| == 0 then 0 else DigitsValue(s[..|s| - 1]) * 10 + DigitValue(s[|s| - 1])
  }

  /** Reading back a rendered number gives the number. */
  lemma {:induction false} NatToStringRoundTrip(n: nat)
    ensures DigitsValue(NatToString(n)) == n
    decreases n
  {
    if n >= 10 {
      var s := NatToString(n);
      assert s[..|s| - 1] == NatToString(n / 10);
      NatToStringRoundTrip(n / 10);
    }
  }

  /** Decimal rendering of a PHP integer: a leading `-` for negatives. */
  function IntToString(i: int): (s: string)
    ensures i >= 0 ==> s == NatToString(i)
    ensures i < 0 ==> s == "-" + NatToString(-i)
  {
    if i < 0 then "-" + NatToString(-i) else NatToString(i)
  }

  // ---------------------------------------------------------------- searching

  predicate StartsWith(s: string, prefix: string) {
    |prefix| <= |s| && s[..|prefix|] == prefix
  }

  predicate EndsWith(s: string, suffix: string) {
    |suffix| <= |s| && s[|s| - |suffix|..] == suffix
  }

  /** `p` occurs in `s` at offset `i`. */
  predicate OccursAt(s: string, p: string, i: nat) {
    i + |p| <= |s| && s[i..i + |p|] == p
  }

  /** The leftmost offset at or after `from` where `p` occurs in `s`. */
  function IndexFrom(s: string, p: string, from: nat): (r: Option<nat>)
    requires from <= |s|
    ensures r.Some? ==> from <= r.value && OccursAt(s, p, r.value)
    ensures r.Some? ==> forall j :: from <= j < r.value ==> !OccursAt(s, p, j)
    ensures r.None? ==> forall j :: from <= j <= |s| ==> !OccursAt(s, p, j)
    decreases |s| - from
  {
    if OccursAt(s, p, from) then Some(from)
    else if from == |s| then None
    else IndexFrom(s, p, from + 1)
  }

  /** The leftmost offset where `p` occurs in `s` (PHP's `strpos`). */
  function IndexOf(s: string, p: string): (r: Option<nat>)
    ensures r.Some? ==> OccursAt(s, p, r.value)
    ensures r.Some? ==> forall j :: 0 <= j < r.value ==> !OccursAt(s, p, j)
    ensures r.None? ==> forall j :: 0 <= j <= |s| ==> !OccursAt(s, p, j)
  {
    IndexFrom(s, p, 0)
  }

  /** Laravel's `Str::contains(haystack, needle)`: an empty needle is never contained. */
  function Contains(haystack: string, needle: string): (r: bool)
    ensures r <==> needle != "" && exists i :: 0 <= i <= |haystack| && OccursAt(haystack, needle, i)
  {
    needle != "" && IndexOf(haystack, needle).Some?
  }

  /** Laravel's `Str::before(subject, search)`: the part of `subject` before the first `search`,
      or all of `subject` when `search` is empty or absent. */
  function Before(subject: string, search: string): (r: string)
    ensures StartsWith(subject, r)
    ensures search != "" ==> forall j :: 0 <= j <= |r| ==> !OccursAt(r, search, j)
    ensures r != subject ==> StartsWith(subject, r + search)
    ensures !Contains(subject, search) ==> r == subject
  {
    if search == "" then subject
    else match IndexOf(subject, search)
      case None => subject
      case Some(i) =>
        var r := subject[..i];
        assert forall j :: 0 <= j <= |r| && OccursAt(r, search, j) ==> OccursAt(subject, search, j);
        assert subject[..i + |search|] == r + search;
        r
  }

  // ---------------------------------------------------------------- trimming

  /** The characters PHP's `trim` strips by default: space, tab, LF, CR, NUL and vertical tab. */
  predicate IsTrimChar(c: char) {
    c == ' ' || c == '\t' || c == '\n' || c == '\r' || c == '\0' || c as int == 0x0B
  }

  function TrimStart(s: string): (r: string)
    ensures EndsWith(s, r)
    ensures |r| > 0 ==> !IsTrimChar(r[0])
    ensures forall i :: 0 <= i < |s| - |r| ==> IsTrimChar(s[i])
    decreases |s|
  {
    if |s| > 0 && IsTrimChar(s[0]) then TrimStart(s[1..]) else s
  }

  function TrimEnd(s: string): (r: string)
    ensures StartsWith(s, r)
    ensures |r| > 0 ==> !IsTrimChar(r[|r| - 1])
    ensures forall i :: |r| <= i < |s| ==> IsTrimChar(s[i])
    decreases |s|
  {
    if |s| > 0 && IsTrimChar(s[|s| - 1]) then TrimEnd(s[..|s| - 1]) else s
  }

  /** PHP's `trim($s)`. */
  function Trim(s: string): string {
    TrimEnd(TrimStart(s))
  }

  predicate AllTrimChars(s: string) {
    forall i :: 0 <= i < |s| ==> IsTrimChar(s[i])
  }

  /** Trimming strips exactly the surrounding whitespace of a text that neither starts nor ends
      with whitespace. */
  lemma {:induction false} TrimSurrounded(lead: string, body: string, trail: string)
    requires AllTrimChars(lead) && AllTrimChars(trail)
    requires |body| > 0 && !IsTrimChar(body[0]) && !IsTrimChar(body[|body| - 1])
    ensures Trim(lead + body + trail) == body
  {
    TrimStartStops(lead, body + trail);
    assert lead + body + trail == lead + (body + trail);
    TrimEndStops(body, trail);
  }

  /** Whitespace alone trims to nothing. */
  lemma {:induction false} TrimBlank(s: string)
    requires AllTrimChars(s)
    ensures TrimStart(s) == "" && Trim(s) == ""
    decreases |s|
  {
    if |s| > 0 {
      TrimBlank(s[1..]);
    }
  }

  lemma {:induction false} TrimStartStops(lead: string, rest: string)
    requires AllTrimChars(lead)
    requires |rest| > 0 && !IsTrimChar(rest[0])
    ensures TrimStart(lead + rest) == rest
    decreases |lead|
  {
    if |lead| > 0 {
      assert (lead + rest)[1..] == lead[1..] + rest;
      TrimStartStops(lead[1..], rest);
    } else {
      assert lead + rest == rest;
    }
  }

  lemma {:induction false} TrimEndStops(rest: string, trail: string)
    requires AllTrimChars(trail)
    requires |rest| > 0 && !IsTrimChar(rest[|rest| - 1])
    ensures TrimEnd(rest + trail) == rest
    decreases |trail|
  {
    if |trail| > 0 {
      var s := rest + trail;
      assert s[..|s| - 1] == rest + trail[..|trail| - 1];
      TrimEndStops(rest, trail[..|trail| - 1]);
    } else {
      assert rest + trail == rest;
    }
  }

  // ---------------------------------------------------------------- splitting and joining

  /** `implode(sep, parts)`. */
  function Join(parts: seq<string>, sep: string): string
    decreases |parts|
  {
    if |parts| == 0 then ""
    else if |parts| == 1 then parts[0]
    else parts[0] + sep + Join(parts[1..], sep)
  }

  /** `explode(sep, s)` for a one-character separator: every piece between separators. */
  function Explode(s: string, sep: char): (parts: seq<string>)
    ensures |parts| >= 1
    ensures forall k :: 0 <= k < |parts| ==> sep !in parts[k]
    decreases |s|
  {
    if |s| == 0 then [""]
    else
      var tail := Explode(s[1..], sep);
      if s[0] == sep then [""] + tail
      else [[s[0]] + tail[0]] + tail[1..]
  }

  /** Exploding and joining back on the same separator restores the text. */
  lemma {:induction false} ExplodeJoin(s: string, sep: char)
    ensures Join(Explode(s, sep), [sep]) == s
    decreases |s|
  {
    if |s| > 0 {
      var tail := Explode(s[1..], sep);
      ExplodeJoin(s[1..], sep);
      if s[0] == sep {
        assert Explode(s, sep) == [""] + tail;
        assert Explode(s, sep)[1..] == tail;
        assert Join(Explode(s, sep), [sep]) == "" + [sep] + Join(tail, [sep]);
        assert s == [s[0]] + s[1..];
      } else {
        var parts := [[s[0]] + tail[0]] + tail[1..];
        assert Explode(s, sep) == parts;
        JoinConsHead(s[0], tail, [sep]);
        assert s == [s[0]] + s[1..];
      }
    }
  }

  /** A piece without the separator explodes to itself. */
  lemma {:induction false} ExplodeNoSeparator(p: string, sep: char)
    requires sep !in p
    ensures Explode(p, sep) == [p]
    decreases |p|
  {
    if |p| > 0 {
      ExplodeNoSeparator(p[1..], sep);
      assert [p[0]] + p[1..] == p;
    }
  }

  /** Exploding at the first separator splits off the piece before it. */
  lemma {:induction false} ExplodeFirstPiece(p: string, sep: char, rest: string)
    requires sep !in p
    ensures Explode(p + [sep] + rest, sep) == [p] + Explode(rest, sep)
    decreases |p|
  {
    var s := p + [sep] + rest;
    if |p| == 0 {
      assert s[1..] == rest;
    } else {
      assert s[1..] == p[1..] + [sep] + rest;
      ExplodeFirstPiece(p[1..], sep, rest);
      assert [p[0]] + p[1..] == p;
    }
  }

  /** Joining pieces free of the separator and exploding the result gives the pieces back. */
  lemma {:induction false} JoinExplode(parts: seq<string>, sep: char)
    requires |parts| >= 1
    requires forall k :: 0 <= k < |parts| ==> sep !in parts[k]
    ensures Explode(Join(parts, [sep]), sep) == parts
    decreases |parts|
  {
    if |parts| == 1 {
      ExplodeNoSeparator(parts[0], sep);
    } else {
      JoinExplode(parts[1..], sep);
      ExplodeFirstPiece(parts[0], sep, Join(parts[1..], [sep]));
      assert [parts[0]] + parts[1..] == parts;
    }
  }

  lemma JoinConsHead(c: char, parts: seq<string>, sep: string)
    requires |parts| >= 1
    ensures Join([[c] + parts[0]] + parts[1..], sep) == [c] + Join(parts, sep)
  {
    var ps := [[c] + parts[0]] + parts[1..];
    if |parts| > 1 {
      assert ps[1..] == parts[1..];
    }
  }

  /** The last piece of `explode(sep, s)`: the text after the final separator. */
  function AfterLast(s: string, sep: char): (r: string)
    ensures EndsWith(s, r) && sep !in r
    ensures r == s || (|r| < |s| && s[|s| - |r| - 1] == sep)
    decreases |s|
  {
    if |s| == 0 then ""
    else if s[|s| - 1] == sep then ""
    else AfterLast(s[..|s| - 1], sep) + [s[|s| - 1]]
  }

  /** PHP's `basename` on a `/`-separated path: trailing slashes are ignored. */
  function Basename(path: string): string {
    AfterLast(StripTrailing(path, '/'), '/')
  }

  function StripTrailing(s: string, c: char): (r: string)
    ensures StartsWith(s, r)
    ensures |r| > 0 ==> r[|r| - 1] != c
    ensures forall i :: |r| <= i < |s| ==> s[i] == c
    decreases |s|
  {
    if |s| > 0 && s[|s| - 1] == c then StripTrailing(s[..|s| - 1], c) else s
  }

  function ReplaceChar(s: string, from: char, to: char): (r: string)
    ensures |r| == |s|
    ensures forall i :: 0 <= i < |s| ==> r[i] == (if s[i] == from then to else s[i])
  {
    seq(|s|, i requires 0 <= i < |s| => if s[i] == from then to else s[i])
  }

  /** Laravel's `class_basename`: the `basename` of the class name with `\` read as `/`. */
  function ClassBasename(name: string): string {
    Basename(ReplaceChar(name, '\\', '/'))
  }

  /** For a class name free of `/` that does not end in `\`, `class_basename` is the last
      `\`-separated segment. */
  lemma ClassBasenameIsLastSegment(name: string)
    requires '/' !in name
    requires |name| > 0 ==> name[|name| - 1] != '\\'
    ensures ClassBasename(name) == AfterLast(name, '\\')
  {
    var r := ReplaceChar(name, '\\', '/');
    assert StripTrailing(r, '/') == r;
    AfterLastReplaced(name);
  }

  lemma {:induction false} AfterLastReplaced(s: string)
    requires '/' !in s
    ensures AfterLast(ReplaceChar(s, '\\', '/'), '/') == AfterLast(s, '\\')
    decreases |s|
  {
    if |s| > 0 {
      var r := ReplaceChar(s, '\\', '/');
      assert r[..|r| - 1] == ReplaceChar(s[..|s| - 1], '\\', '/');
      AfterLastReplaced(s[..|s| - 1]);
    }
  }

  // ---------------------------------------------------------------- ordering

  /** Byte-wise string order (`strcmp(a, b) < 0`), the order file names sort in. */
  predicate LexLess(a: string, b: string)
    decreases |a|
  {
    if |a| == 0 then |b| > 0
    else if |b| == 0 then false
    else a[0] < b[0] || (a[0] == b[0] && LexLess(a[1..], b[1..]))
  }

  /** A common prefix does not change the order. */
  lemma {:induction false} LexLessCommonPrefix(p: string, a: string, b: string)
    ensures LexLess(p + a, p + b) <==> LexLess(a, b)
    decreases |p|
  {
    if |p| > 0 {
      assert (p + a)[1..] == p[1..] + a;
      assert (p + b)[1..] == p[1..] + b;
      LexLessCommonPrefix(p[1..], a, b);
    } else {
      assert p + a == a && p + b == b;
    }
  }

  /** Between strings of equal length the order is decided inside them, whatever follows. */
  lemma {:induction false} LexLessEqualLength(a: string, b: string, x: string, y: string)
    requires |a| == |b| && LexLess(a, b)
    ensures LexLess(a + x, b + y)
    decreases |a|
  {
    assert |a| > 0;
    if a[0] == b[0] && !(a[0] < b[0]) {
      assert (a + x)[1..] == a[1..] + x;
      assert (b + y)[1..] == b[1..] + y;
      LexLessEqualLength(a[1..], b[1..], x, y);
    }
  }

  lemma {:induction false} LexLessIrreflexive(a: string)
    ensures !LexLess(a, a)
    decreases |a|
  {
    if |a| > 0 {
      LexLessIrreflexive(a[1..]);
    }
  }
}

=== FILE: provider.dfy ===
/**
 * The `use` lines and container bindings filled into the module's service provider: for
 * every model a service contract, a service, a repository contract and a repository, bound
 * interface to implementation. The generator and the make-module command differ only in
 * what they emit for clean modules and for modules without components.
 */
module Provider {
  import opened Wrappers
  import opened Php

  function Use(name: string): string {
    "use " + name + ";"
  }

  /** The four imports one model contributes, in this order. */
  function UseLines(moduleName: string, model: string): seq<string> {
    [Use("Modules\\" + moduleName + "\\Services\\Contracts\\" + model + "ServiceInterface"),
     Use("Modules\\" + moduleName + "\\Services\\" + model + "Service"),
     Use("Modules\\" + moduleName + "\\Repositories\\Contracts\\" + model + "RepositoryInterface"),
     Use("Modules\\" + moduleName + "\\Repositories\\" + model + "Repository")]
  }

  /** The imports of all models, model by model. */
  function ImportLines(moduleName: string, models: seq<string>): (r: seq<string>)
    ensures |r| == 4 * |models|
    decreases |models|
  {
    if |models| == 0 then [] else UseLines(moduleName, models[0]) + ImportLines(moduleName, models[1..])
  }

  /** One `$this->app->bind(...)` statement, indented for the provider's `register` body. */
  function BindBlock(abstract_: string, concrete: string): string {
    "        $this->app->bind(\n            " + abstract_ + "::class,\n            " + concrete + "::class\n        );\n"
  }

  /** The two bindings one model contributes: the service, then the repository. */
  function BindBlocks(model: string): seq<string> {
    [BindBlock(model + "ServiceInterface", model + "Service"),
     BindBlock(model + "RepositoryInterface", model + "Repository")]
  }

  function Bindings(models: seq<string>): (r: seq<string>)
    ensures |r| == 2 * |models|
    decreases |models|
  {
    if |models| == 0 then [] else BindBlocks(models[0]) + Bindings(models[1..])
  }

  /** Lines each followed by a newline, as the loop's `.=` builds them. */
  function Terminated(lines: seq<string>): string
    decreases |lines|
  {
    if |lines| == 0 then "" else lines[0] + "\n" + Terminated(lines[1..])
  }

  function Concat(parts: seq<string>): string
    decreases |parts|
  {
    if |parts| == 0 then "" else parts[0] + Concat(parts[1..])
  }

  /** Both lists follow the models' order: the lines of a split list are those of its parts. */
  lemma {:induction false} ImportLinesAppend(moduleName: string, a: seq<string>, b: seq<string>)
    ensures ImportLines(moduleName, a + b) == ImportLines(moduleName, a) + ImportLines(moduleName, b)
    decreases |a|
  {
    if |a| == 0 {
      assert a + b == b;
    } else {
      assert (a + b)[1..] == a[1..] + b;
      ImportLinesAppend(moduleName, a[1..], b);
    }
  }

  lemma {:induction false} BindingsAppend(a: seq<string>, b: seq<string>)
    ensures Bindings(a + b) == Bindings(a) + Bindings(b)
    decreases |a|
  {
    if |a| == 0 {
      assert a + b == b;
    } else {
      assert (a + b)[1..] == a[1..] + b;
      BindingsAppend(a[1..], b);
    }
  }

  /** One model contributes exactly its four imports and its two bindings. */
  lemma ProviderListsOne(moduleName: string, model: string)
    ensures ImportLines(moduleName, [model]) == UseLines(moduleName, model)
    ensures Bindings([model]) == BindBlocks(model)
  {
    assert [model][1..] == [];
  }

  /** The models the provider is built for: every component's studly name in a dynamic module
      with components, otherwise the module's own studly name alone. */
  function ProviderModels(inf: Inflector, moduleName: string, isClean: bool, components: seq<string>): (r: seq<string>)
    ensures |r| >= 1
    ensures !isClean && |components| > 0 ==> |r| == |components| && forall k :: 0 <= k < |r| ==> r[k] == inf.studly(components[k])
    ensures isClean || |components| == 0 ==> r == [inf.studly(moduleName)]
  {
    if !isClean && |components| > 0 then seq(|components|, k requires 0 <= k < |components| => inf.studly(components[k]))
    else [inf.studly(moduleName)]
  }

  /** The two placeholder values: the trimmed imports and the trimmed bindings. */
  datatype ProviderText = ProviderText(imports: string, bindings: string)

  /** `ProviderGenerator::generate`. `moduleName` is the generator's own module name, which its
      constructor has already passed through `Str::studly`. */
  function GeneratorProvider(inf: Inflector, moduleName: string, isClean: bool, components: seq<string>): ProviderText {
    var models := ProviderModels(inf, moduleName, isClean, components);
    ProviderText(Trim(Terminated(ImportLines(moduleName, models))), Trim(Concat(Bindings(models))))
  }

  /** `MakeModuleCommand::createProvider`: nothing at all outside a dynamic module with
      components. */
  function CommandProvider(inf: Inflector, moduleName: string, isClean: bool, components: seq<string>): ProviderText {
    if !isClean && |components| > 0 then
      var models := ProviderModels(inf, moduleName, isClean, components);
      ProviderText(Trim(Terminated(ImportLines(moduleName, models))), Trim(Concat(Bindings(models))))
    else ProviderText("", "")
  }

  // ---------------------------------------------------------------- what trimming leaves

  lemma {:induction false} TerminatedIsJoin(lines: seq<string>)
    requires |lines| > 0
    ensures Terminated(lines) == Join(lines, "\n") + "\n"
    decreases |lines|
  {
    if |lines| > 1 {
      TerminatedIsJoin(lines[1..]);
    }
  }

  /** An import line: `use ...;` on one line. */
  predicate UseShaped(s: string) {
    |s| > 0 && s[0] == 'u' && s[|s| - 1] == ';' && '\n' !in s
  }

  lemma UseShape(name: string)
    requires '\n' !in name
    ensures UseShaped(Use(name))
  {
  }

  lemma {:induction false} ImportLinesShaped(moduleName: string, models: seq<string>)
    requires OneLine(moduleName) && forall k :: 0 <= k < |models| ==> OneLine(models[k])
    ensures forall i :: 0 <= i < |ImportLines(moduleName, models)| ==> UseShaped(ImportLines(moduleName, models)[i])
    decreases |models|
  {
    if |models| > 0 {
      var m := models[0];
      ImportLinesShaped(moduleName, models[1..]);
      UseShape("Modules\\" + moduleName + "\\Services\\Contracts\\" + m + "ServiceInterface");
      UseShape("Modules\\" + moduleName + "\\Services\\" + m + "Service");
      UseShape("Modules\\" + moduleName + "\\Repositories\\Contracts\\" + m + "RepositoryInterface");
      UseShape("Modules\\" + moduleName + "\\Repositories\\" + m + "Repository");
      var u := UseLines(moduleName, m);
      var rest := ImportLines(moduleName, models[1..]);
      assert ImportLines(moduleName, models) == u + rest;
    }
  }

  lemma {:induction false} JoinEnds(parts: seq<string>, sep: string)
    requires |parts| > 0 && forall i :: 0 <= i < |parts| ==> |parts[i]| > 0
    ensures var j := Join(parts, sep);
      |j| > 0 && j[0] == parts[0][0] && j[|j| - 1] == parts[|parts| - 1][|parts[|parts| - 1]| - 1]
    decreases |parts|
  {
    if |parts| > 1 {
      JoinEnds(parts[1..], sep);
    }
  }

  /** A line the imports text keeps apart: no newline inside. */
  predicate OneLine(s: string) {
    '\n' !in s
  }

  /**
   * The trimmed imports are the import lines, one per line, and nothing else: splitting them
   * at newlines gives back four lines per model, model by model.
   */
  lemma ImportsRecoverable(moduleName: string, models: seq<string>)
    requires |models| > 0
    requires OneLine(moduleName) && forall k :: 0 <= k < |models| ==> OneLine(models[k])
    ensures Explode(Trim(Terminated(ImportLines(moduleName, models))), '\n') == ImportLines(moduleName, models)
  {
    var lines := ImportLines(moduleName, models);
    TerminatedIsJoin(lines);
    ImportLinesShaped(moduleName, models);
    JoinEnds(lines, "\n");
    var body := Join(lines, "\n");
    TrimSurrounded("", body, "\n");
    assert "" + body + "\n" == Terminated(lines);
    JoinExplode(lines, '\n');
  }

  const BindIndent: string := "        "

  /** A binding statement: indented, opening with `$`, closing with `;` and a newline. */
  predicate BindShaped(s: string) {
    |s| >= 20 && StartsWith(s, BindIndent + "$") && EndsWith(s, ";\n")
  }

  lemma BindBlockShape(abstract_: string, concrete: string)
    ensures BindShaped(BindBlock(abstract_, concrete))
  {
    var h := "        $this->app->bind(\n            ";
    var b := BindBlock(abstract_, concrete);
    assert b == h + (abstract_ + "::class,\n            " + concrete + "::class\n        );\n");
    assert b[..|BindIndent| + 1] == h[..|BindIndent| + 1];
  }

  lemma {:induction false} BindingsShaped(models: seq<string>)
    ensures forall i :: 0 <= i < |Bindings(models)| ==> BindShaped(Bindings(models)[i])
    decreases |models|
  {
    if |models| > 0 {
      var m := models[0];
      BindingsShaped(models[1..]);
      BindBlockShape(m + "ServiceInterface", m + "Service");
      BindBlockShape(m + "RepositoryInterface", m + "Repository");
      assert Bindings(models) == BindBlocks(m) + Bindings(models[1..]);
    }
  }

  lemma {:induction false} ConcatShaped(parts: seq<string>)
    requires |parts| > 0 && forall i :: 0 <= i < |parts| ==> BindShaped(parts[i])
    ensures BindShaped(Concat(parts))
    decreases |parts|
  {
    if |parts| > 1 {
      ConcatShaped(parts[1..]);
      var rest := Concat(parts[1..]);
      assert Concat(parts)[..|BindIndent| + 1] == parts[0][..|BindIndent| + 1];
      assert Concat(parts)[|Concat(parts)| - 2..] == rest[|rest| - 2..];
    } else {
      assert Concat(parts) == parts[0] + "";
    }
  }

  lemma TrimIndented(c: string)
    requires BindShaped(c)
    ensures BindIndent + Trim(c) + "\n" == c
  {
    var body := c[|BindIndent|..|c| - 1];
    assert c == BindIndent + body + "\n";
    assert body[0] == c[|BindIndent|] == '$';
    assert body[|body| - 1] == c[|c| - 2] == ';';
    TrimSurrounded(BindIndent, body, "\n");
  }

  /** Trimming the bindings removes exactly the first statement's indentation and the final
      newline. */
  lemma BindingsTrimmed(models: seq<string>)
    requires |models| > 0
    ensures var c := Concat(Bindings(models));
      BindIndent + Trim(c) + "\n" == c
  {
    BindingsShaped(models);
    ConcatShaped(Bindings(models));
    TrimIndented(Concat(Bindings(models)));
  }

  /** The generator always emits at least one full set; the command agrees with it for a dynamic
      module with components and emits nothing otherwise. */
  lemma CommandVersusGenerator(inf: Inflector, moduleName: string, isClean: bool, components: seq<string>)
    ensures !isClean && |components| > 0 ==>
      CommandProvider(inf, moduleName, isClean, components) == GeneratorProvider(inf, moduleName, isClean, components)
    ensures isClean || |components| == 0 ==> CommandProvider(inf, moduleName, isClean, components) == ProviderText("", "")
    ensures GeneratorProvider(inf, moduleName, isClean, components).bindings != ""
  {
    var models := ProviderModels(inf, moduleName, isClean, components);
    BindingsTrimmed(models);
  }
}

=== FILE: stubs.dfy ===
/**
 * Stub handling shared by every generator: where a stub lives, how its `{{ key }}` markers
 * are filled, and what happens when the stub is missing. The file system is an oracle from
 * a path to the file's contents, absent when the file does not exist.
 */
module Stubs {
  import opened Wrappers
  import opened Php

  // ---------------------------------------------------------------- str_replace

  /**
   * The pieces of `s` between the leftmost non-overlapping occurrences of `p`: joined back
   * with `p` they give `s`, none of them contains `p`, and the first occurrence of `p` in `s`
   * starts right after the first piece.
   */
  function SplitOn(s: string, p: string): (parts: seq<string>)
    requires p != ""
    ensures |parts| >= 1
    ensures Join(parts, p) == s
    ensures forall k :: 0 <= k < |parts| ==> !Contains(parts[k], p)
    ensures forall j :: 0 <= j < |parts[0]| ==> !OccursAt(s, p, j)
    ensures |parts| > 1 ==> OccursAt(s, p, |parts[0]|)
    decreases |s|
  {
    match IndexOf(s, p)
    case None => [s]
    case Some(i) =>
      var head := s[..i];
      var rest := SplitOn(s[i + |p|..], p);
      assert forall j :: 0 <= j <= |head| && OccursAt(head, p, j) ==> OccursAt(s, p, j);
      assert s == head + p + Join(rest, p);
      [head] + rest
  }

  /** PHP's `str_replace(p, r, s)` for one search string: every leftmost non-overlapping
      occurrence of `p` becomes `r`; an empty search string changes nothing. */
  function ReplaceAll(s: string, p: string, r: string): string {
    if p == "" then s else Join(SplitOn(s, p), r)
  }

  /** A text without the search string is returned unchanged. */
  lemma ReplaceAbsent(s: string, p: string, r: string)
    requires !Contains(s, p)
    ensures ReplaceAll(s, p, r) == s
  {
    if p != "" {
      assert IndexOf(s, p).None?;
    }
  }

  /** Replacing a string by itself changes nothing. */
  lemma ReplaceBySelf(s: string, p: string)
    ensures ReplaceAll(s, p, p) == s
  {
  }

  lemma {:induction false} JoinLength(parts: seq<string>, sep: string)
    requires |parts| >= 1
    ensures |Join(parts, sep)| == (|parts| - 1) * |sep| + SumLengths(parts)
    decreases |parts|
  {
    if |parts| > 1 {
      JoinLength(parts[1..], sep);
    }
  }

  function SumLengths(parts: seq<string>): nat
    decreases |parts|
  {
    if |parts| == 0 then 0 else |parts[0]| + SumLengths(parts[1..])
  }

  /**
   * Every occurrence replaced changes the length by the difference of the two strings: with
   * `n` occurrences the result is `n * (|r| - |p|)` longer than the text.
   */
  lemma ReplaceLength(s: string, p: string, r: string)
    requires p != ""
    ensures var n := |SplitOn(s, p)| - 1;
      |ReplaceAll(s, p, r)| == |s| + n * (|r| - |p|)
  {
    var parts := SplitOn(s, p);
    RejoinLength(parts, p, r);
    assert ReplaceAll(s, p, r) == Join(parts, r) && Join(parts, p) == s;
  }

  /** Joining pieces with another separator changes the length by the separators' difference,
      once per gap. */
  lemma RejoinLength(parts: seq<string>, p: string, r: string)
    requires |parts| >= 1
    ensures |Join(parts, r)| == |Join(parts, p)| + (|parts| - 1) * (|r| - |p|)
  {
    JoinLength(parts, p);
    JoinLength(parts, r);
    LengthShift(|parts| - 1, |p|, |r|, SumLengths(parts), |Join(parts, p)|, |Join(parts, r)|);
  }

  lemma LengthShift(n: int, a: int, b: int, sum: int, x: int, y: int)
    requires x == n * a + sum && y == n * b + sum
    ensures y == x + n * (b - a)
  {
  }

  // ---------------------------------------------------------------- placeholders

  /** The marker a placeholder key stands for in a stub. */
  function Marker(key: string): (m: string)
    ensures |m| == |key| + 6
  {
    "{{ " + key + " }}"
  }

  /** `replacePlaceholders`: each key's marker replaced by its value, in the map's order, so a
      later key also sees the text an earlier value brought in. */
  function ReplacePlaceholders(stub: string, placeholders: seq<(string, string)>): string
    decreases |placeholders|
  {
    if |placeholders| == 0 then stub
    else
      var (key, value) := placeholders[0];
      ReplacePlaceholders(ReplaceAll(stub, Marker(key), value), placeholders[1..])
  }

  /** Filling with two maps in turn is filling with their concatenation. */
  lemma {:induction false} ReplacePlaceholdersAppend(stub: string, ps: seq<(string, string)>, qs: seq<(string, string)>)
    ensures ReplacePlaceholders(stub, ps + qs) == ReplacePlaceholders(ReplacePlaceholders(stub, ps), qs)
    decreases |ps|
  {
    if |ps| == 0 {
      assert ps + qs == qs;
    } else {
      assert (ps + qs)[0] == ps[0] && (ps + qs)[1..] == ps[1..] + qs;
      ReplacePlaceholdersAppend(ReplaceAll(stub, Marker(ps[0].0), ps[0].1), ps[1..], qs);
    }
  }

  /** One key replaces every occurrence of its marker; a key whose marker is absent, or an
      empty map, leaves the text as it is. */
  lemma ReplaceOne(stub: string, key: string, value: string)
    ensures ReplacePlaceholders(stub, [(key, value)]) == ReplaceAll(stub, Marker(key), value)
    ensures !Contains(stub, Marker(key)) ==> ReplacePlaceholders(stub, [(key, value)]) == stub
    ensures ReplacePlaceholders(stub, []) == stub
  {
    if !Contains(stub, Marker(key)) {
      ReplaceAbsent(stub, Marker(key), value);
    }
  }

  /** A stub without any marker of the map comes back unchanged. */
  lemma {:induction false} NoMarkersUnchanged(stub: string, placeholders: seq<(string, string)>)
    requires forall k :: 0 <= k < |placeholders| ==> !Contains(stub, Marker(placeholders[k].0))
    ensures ReplacePlaceholders(stub, placeholders) == stub
    decreases |placeholders|
  {
    if |placeholders| > 0 {
      ReplaceAbsent(stub, Marker(placeholders[0].0), placeholders[0].1);
      NoMarkersUnchanged(stub, placeholders[1..]);
    }
  }

  // ---------------------------------------------------------------- locating stubs

  /** `getStubPath`: `{base}/clean/{file}` for clean stubs, `{base}/dynamic/{file}` otherwise. */
  function StubPath(base: string, file: string, isClean: bool): string {
    base + "/" + (if isClean then "clean" else "dynamic") + "/" + file
  }

  /** Below one base directory the path determines both the variant and the file. */
  lemma StubPathInjective(base: string, file: string, isClean: bool, file': string, isClean': bool)
    requires StubPath(base, file, isClean) == StubPath(base, file', isClean')
    ensures file == file' && isClean == isClean'
  {
    var p := StubPath(base, file, isClean);
    var n := |base| + 1;
    assert p[n] == (if isClean then 'c' else 'd');
    assert StubPath(base, file', isClean')[n] == (if isClean' then 'c' else 'd');
    var sub := if isClean then "clean" else "dynamic";
    assert p[n + |sub| + 1..] == file;
    assert StubPath(base, file', isClean')[n + |sub| + 1..] == file';
  }

  /** `HasStubs::getStubContent`: the filled stub, or the error the trait raises when the stub
      file does not exist. */
  function StubContent(files: string -> Option<string>, base: string, file: string, isClean: bool,
                       placeholders: seq<(string, string)>): (r: Result<string, string>)
    ensures files(StubPath(base, file, isClean)).None? <==> r.Failure?
    ensures r.Failure? ==> r.error == "El archivo stub '" + file + "' no se encuentra en '" + StubPath(base, file, isClean) + "'."
    ensures r.Success? ==> r.value == ReplacePlaceholders(files(StubPath(base, file, isClean)).value, placeholders)
  {
    var path := StubPath(base, file, isClean);
    match files(path)
    case None => Failure("El archivo stub '" + file + "' no se encuentra en '" + path + "'.")
    case Some(text) => Success(ReplacePlaceholders(text, placeholders))
  }

  /** The make-module command's copy: a missing stub reads as the empty text. */
  function CommandStubContent(files: string -> Option<string>, base: string, file: string, isClean: bool,
                              placeholders: seq<(string, string)>): string {
    ReplacePlaceholders(files(StubPath(base, file, isClean)).GetOr(""), placeholders)
  }

  lemma {:induction false} FillEmpty(placeholders: seq<(string, string)>)
    ensures ReplacePlaceholders("", placeholders) == ""
    decreases |placeholders|
  {
    if |placeholders| > 0 {
      ReplaceAbsent("", Marker(placeholders[0].0), placeholders[0].1);
      FillEmpty(placeholders[1..]);
    }
  }

  /** The command agrees with the trait whenever the stub exists and yields the empty text
      where the trait fails. */
  lemma CommandStubAgrees(files: string -> Option<string>, base: string, file: string, isClean: bool,
                          placeholders: seq<(string, string)>)
    ensures var r := StubContent(files, base, file, isClean, placeholders);
      (r.Success? ==> CommandStubContent(files, base, file, isClean, placeholders) == r.value)
      && (r.Failure? ==> CommandStubContent(files, base, file, isClean, placeholders) == "")
  {
    FillEmpty(placeholders);
  }
}

=== FILE: wrappers.dfy ===
/** Failure-compatible wrapper types shared by every module of the model. */
module Wrappers {

  /** A value that may be absent: PHP's `null` return. */
  datatype Option<+T> = None | Some(value: T) {

    /** Returns the wrapped value, or `default` when there is none (PHP's `??`). */
    function GetOr(default: T): T {
      match this
      case Some(v) => v
      case None => default
    }
  }

  /** Either a computed value or the error the source raises instead. */
  datatype Result<+R, +E> = Success(value: R) | Failure(error: E)
}
